=== FILE: README.md ===
# TaskFlow board core, modelled in Dafny

TaskFlow is a single-page kanban application. This project models the logic behind it in Dafny:

- **The board.** A list of tasks and a list of columns, each replaced as a whole on every event. The board also has a drag slot (idle, or dragging one task) and an edit slot (the task being edited, if any).
- **Board events.** Filtering tasks by column, drag start and drop, creating, editing and deleting tasks, creating columns, and ordering columns for display.
- **Read-only statistics.** The reports page has counts by status and by priority, the completion rate, average progress and the priority bars. The analytics page has productivity, tasks created this week, the critical-task rate and the status distribution.
- **The synthesised activity log.** It derives one to three entries per task by fixed rules, sorts them newest first (stable for ties), counts them by kind and labels their ages.
- **The two forms.** The task editor and the column editor: loading, resetting, choosing an assignee or colour, and a submit guard that refuses a blank title.

Everything is pure, so each handler is a function from the state before the event to the state after it. Time is an integer number of milliseconds. The clock (`new Date()`) and the id generator (`generateId`) become parameters (`now`, `freshId`).

Modules, one per source file plus small helpers:

- **`TaskTypes`** (`types/task.ts`)
- **`Kanban`** (`components/kanban-board.tsx`)
- **`Reports`**, **`Analytics`**, **`ActivityLogs`**, **`TaskModal`**, **`ColumnModal`** (the component files of those names)
- Helpers:
  - `Wrappers`: `Option`
  - `Seqs`: filter, count, map-where
  - `Sorting`: the stable `Array.prototype.sort`
  - `Text`: ECMAScript `trim` and decimal rendering
  - `JsMath`: `Math.round` of a quotient

`Math.round(x)` is `floor(x + 1/2)`. So `Math.round(100 * a / b)` is computed exactly as `(200a + b) div 2b`. Contracts state it as the two-sided bound `2b·r − b ≤ 200a < 2b·r + b`.

## Model

| member | source | states |
|---|---|---|
| Kanban.TasksByStatus | components/kanban-board.tsx:123-125 | a column shows every task whose status is the column id and only those; its size is the number of such tasks |
| Kanban.TasksByStatusKeepsOrder | components/kanban-board.tsx:123-125 | the column view distributes over concatenation and keeps a single task exactly when its status matches, so list order is preserved |
| Kanban.FindIndex | components/kanban-board.tsx:128 | `tasks.find` by id: the first position holding the id, or none exactly when no task has it |
| Kanban.DragStart | components/kanban-board.tsx:127-130 | the drag slot holds the first task with the dragged id, and is empty exactly when no task has that id; nothing else changes |
| Kanban.DragEnd | components/kanban-board.tsx:132-148 | the slot is always emptied; with no drop target or a target that is not a column id the tasks are unchanged; otherwise exactly the tasks with the dragged id get the new status and time, with length, order and all other tasks unchanged |
| Kanban.ReassignLeavesOtherColumns | components/kanban-board.tsx:141-144 | after reassigning to column `c`, every other column shows what it showed before minus the dragged id, in the same order |
| Kanban.DropMovesTaskBetweenColumns | components/kanban-board.tsx:132-148 | a drop on a known column puts the dragged task in that column's view and removes it from every other column's view |
| Kanban.DropIsIdempotent | components/kanban-board.tsx:132-148 | repeating the same drop at the same instant leaves the board as the first drop left it |
| Kanban.CreateTask | components/kanban-board.tsx:150-168 | exactly one task is appended, with the fresh id, status "todo", progress 0, both times `now`, and title, description, priority and assignee taken from the data or defaulted to "", "", medium and Unassigned; existing tasks are untouched |
| Kanban.CreatedTaskIsFoundLast | components/kanban-board.tsx:150-166 | with a fresh id the new task is the one found under that id, and it is shown last in the to-do column after the tasks already there |
| Kanban.Merge | components/kanban-board.tsx:174 | object spread `{ ...task, ...patch, updatedAt }`: each supplied field overrides, each absent one is kept, and the update time is `now` |
| Kanban.Reassign | components/kanban-board.tsx:142-144 | the list keeps its length; each task with the dragged id gets the new status and the current time, every other task is unchanged |
| Kanban.UpdateTask | components/kanban-board.tsx:170-179 | a no-op when nothing is being edited; otherwise every task with the edited id is merged with the patch, every other task is unchanged, and the edit slot is cleared |
| Kanban.FormEditKeepsIdentity | components/kanban-board.tsx:170-179 | an edit from the task form keeps every task's id, status and creation time, writes the five form fields into the edited task, and never moves an update time backwards as long as `now` is not earlier than that time |
| Kanban.LoadSubmitRoundTrip | components/task-modal.tsx:39-47 | loading a task into the form and submitting it unchanged changes nothing but the update time |
| Kanban.DeleteTask | components/kanban-board.tsx:181-184 | every task with the id is removed, every other task survives, and the length drops by the number of tasks that had the id |
| Kanban.DeleteKeepsOrder | components/kanban-board.tsx:181-182 | deletion distributes over concatenation, so survivors keep their relative order |
| Kanban.DeleteAbsentIsNoop | components/kanban-board.tsx:181-182 | deleting an id no task carries leaves the board unchanged |
| Kanban.DeleteTwiceIsDeleteOnce | components/kanban-board.tsx:181-182 | deleting twice equals deleting once; afterwards the id is not found and a drag on it holds nothing |
| Kanban.CreateColumn | components/kanban-board.tsx:191-202 | one column is appended with the fresh id, the draft's title and colour, and order equal to the prior column count; existing columns and all tasks are unchanged |
| Kanban.DisplayColumns | components/kanban-board.tsx:244-247 | the display order is a permutation of the columns in non-decreasing `order` |
| Kanban.ListedInOrderDisplayedAsListed | components/kanban-board.tsx:246 | columns already in increasing order are displayed exactly as listed (the sort is stable) |
| Kanban.NewColumnDisplayedLast | components/kanban-board.tsx:191-200 | while every order is below the column count, a new column keeps that invariant and is displayed after all existing columns, which keep their display order |
| Kanban.InitialColumnsDisplayInOrder | components/kanban-board.tsx:36-58 | the seed columns have orders 0, 1, 2, satisfy the order invariant and are displayed as listed |
| Kanban.SeedColumnIds | components/kanban-board.tsx:36-58 | the seed column ids are exactly "todo", "in-progress" and "done" |
| Kanban.SeedColumnDropTargets | components/kanban-board.tsx:141 | on the seed columns, a drop on any other id (such as another task card) leaves the tasks unchanged |
| Kanban.BacklogColumnScenario | components/kanban-board.tsx:191-200 | a column created on the seed board gets order 3 and is displayed last |
| Kanban.EditTask | components/kanban-board.tsx:186-189 | the chosen task becomes the one being edited; tasks, columns and the drag slot are untouched |
| Kanban.CloseTaskModal | components/kanban-board.tsx:322-325 | closing the task modal ends any edit and changes nothing else |
| Kanban.EditThenCancelIsNoop | components/kanban-board.tsx:186-189 | opening the editor on a task and cancelling leaves the board as it was |
| Kanban.EditSubmitUnchanged | components/kanban-board.tsx:170-179 | editing a task and submitting its form unchanged only refreshes the update time of that task, leaves other tasks alone and ends the edit |
| Kanban.SubmitTaskForm | components/kanban-board.tsx:320-328 | a blank title changes nothing; otherwise the form updates the edited task, or appends exactly the task the create handler builds from the form: its title, description, priority and assignee, progress 0, the fresh id, the "todo" column and `now` as both timestamps; the close handler ends the edit |
| Kanban.SubmitColumnForm | components/kanban-board.tsx:330-334 | a blank title changes neither board nor form; otherwise the column is appended and the form returns to its initial state |
| Reports.CompletionRate | components/reports-page.tsx:13-17 | 0 on an empty list; otherwise the rounded percentage of done tasks, always in 0..100, exactly 100 when every task is done and 0 when none is |
| Reports.StatusCountsPartition | components/reports-page.tsx:13-16 | the three seeded status counts plus the count of tasks in other columns equal the total |
| Reports.StatusCountsBounded | components/reports-page.tsx:13-16 | todo + in-progress + done never exceeds the total, and falls short of it exactly when some task has a custom-column status |
| Reports.PriorityCountsPartition | components/reports-page.tsx:19-21 | high + medium + low counts equal the total |
| Reports.SumProgressConcat | components/reports-page.tsx:24 | the progress sum adds up over concatenation and a single task contributes its progress, which with the empty sum 0 is the `reduce` from 0 |
| Reports.SumProgressBetween | components/reports-page.tsx:24 | the progress sum lies between n times any lower and any upper bound of the individual progress values |
| Reports.AverageProgress | components/reports-page.tsx:23-24 | 0 on an empty list; otherwise the mean progress rounded half up |
| Reports.AverageProgressBetween | components/reports-page.tsx:23-24 | the average lies between any bounds of the individual progress values, so it is in 0..100 when every progress is |
| Reports.ShareBar | components/reports-page.tsx:161-177 | a bar is 0 for an empty list, otherwise exactly count/total of 100, within 0..100 |
| Reports.SharesAddUp | components/reports-page.tsx:161-177 | three shares of a common total that partition it add up to 100 |
| Reports.PriorityBars | components/reports-page.tsx:161-177 | the three priority bars are each within 0..100, all 0 on an empty list, and otherwise add up to exactly 100 |
| Reports.SeedShapeStatistics | components/reports-page.tsx:17-24 | any three tasks in the seed's columns (to do, in progress, done) with the seed's progress values 0, 75 and 100 give a completion rate of 33 and an average progress of 58 |
| Reports.SeedStatistics | components/kanban-board.tsx:60-103 | on the board's three seed tasks the reports page shows a completion rate of 33% and an average progress of 58% |
| Analytics.Productivity | components/analytics-page.tsx:12-14 | 0 on an empty list; otherwise within half a point of the exact percentage of done tasks, and always in 0..100 |
| Analytics.ProductivityIsCompletionRate | components/analytics-page.tsx:13-14 | productivity equals the reports page's completion rate on every task list |
| Analytics.ThisWeekTasks | components/analytics-page.tsx:16-20 | the count of tasks created at or after a week before `now`: at most the total, zero exactly when all are older, the total exactly when none is |
| Analytics.ThisWeekTasksAppend | components/analytics-page.tsx:16-20 | appending a task never lowers the weekly count, and raises it by one exactly when the task is recent |
| Analytics.CreatedTaskCountsThisWeek | components/analytics-page.tsx:16-20 | a task just created on the board raises the weekly count by one |
| Analytics.HighDoneWithinHigh | components/analytics-page.tsx:22-23 | high-priority done tasks never outnumber high-priority tasks |
| Analytics.CriticalTasksRate | components/analytics-page.tsx:22-24 | 0 when there are no high-priority tasks; otherwise the rounded percentage of them that are done, within 0..100 |
| Analytics.StatusBar | components/analytics-page.tsx:118-146 | a distribution row's count is the status-filter count, and its width is 0 for an empty list, otherwise exactly count/total of 100 |
| Analytics.Distribution | components/analytics-page.tsx:118-160 | the to-do, in-progress and completed rows show the status-filter counts, which together never exceed the total |
| ActivityLogs.CreatedEntry | components/activity-logs-page.tsx:39-46 | a created entry carries the task's creation time |
| ActivityLogs.UpdatedEntry | components/activity-logs-page.tsx:49-58 | an updated entry is stamped 30 minutes before the task's update time |
| ActivityLogs.CompletedEntry | components/activity-logs-page.tsx:61-70 | a completed entry carries the task's update time |
| ActivityLogs.MovedEntry | components/activity-logs-page.tsx:73-82 | a moved entry is stamped one hour before the task's update time |
| ActivityLogs.EntriesFor | components/activity-logs-page.tsx:35-83 | a task contributes one to three entries, all attributed to `users[index mod 3]` and naming the task's title |
| ActivityLogs.EntriesForCountKind | components/activity-logs-page.tsx:38-82 | a task yields exactly one created entry; one updated entry iff 0 < progress < 100; one completed iff done; one moved iff in progress; never a deleted one |
| ActivityLogs.EntriesForShape | components/activity-logs-page.tsx:35-83 | the number of a task's entries is 1 plus one per rule that fires, and each entry kind carries its rule's timestamp |
| ActivityLogs.RawLogs | components/activity-logs-page.tsx:35-83 | the unsorted log holds between one and three entries per task |
| ActivityLogs.RawLogsCountKind | components/activity-logs-page.tsx:35-83 | over the whole list, the entries of each kind are as many as the tasks that are that kind's source |
| ActivityLogs.RawLogsLength | components/activity-logs-page.tsx:35-83 | the log's length is tasks + #(0 < progress < 100) + #done + #in-progress |
| ActivityLogs.RawLogsCounts | components/activity-logs-page.tsx:35-83 | one created entry per task, an updated one per part-done task, a completed one per done task, a moved one per in-progress task |
| ActivityLogs.NoDeletedEntries | components/activity-logs-page.tsx:15-83 | the synthesised log never contains a "deleted" entry although the type allows one |
| ActivityLogs.RawLogsOrigin | components/activity-logs-page.tsx:35-83 | every entry of the log comes from some task's rules, and every entry a task's rules produce is in the log (the two lemmas below, stated together) |
| ActivityLogs.RawLogsFromTasks | components/activity-logs-page.tsx:35-83 | every entry of the log comes from some task's rules |
| ActivityLogs.TasksInRawLogs | components/activity-logs-page.tsx:35-83 | every entry a task's rules produce is in the log |
| ActivityLogs.GenerateActivityLogs | components/activity-logs-page.tsx:85 | the returned log is a permutation of the generated entries in non-increasing timestamp order |
| ActivityLogs.GeneratedLogIsStable | components/activity-logs-page.tsx:85 | entries sharing a timestamp keep their generation order (the sort is stable) |
| ActivityLogs.ActivityCounters | components/activity-logs-page.tsx:186-222 | the four counters on the page equal #tasks, #done, #part-done and #in-progress, and the log's length is their sum |
| ActivityLogs.RenderTimeAgo | components/activity-logs-page.tsx:149-156 | "Just now", the date string after a week, and otherwise a label from which the count (in decimal, without a leading zero) and the unit ("m ago", "h ago", "d ago") can be read back |
| ActivityLogs.FormatTimeAgo | components/activity-logs-page.tsx:145-158 | "just now" exactly when under a minute has elapsed (future times included); otherwise the floored minutes below 60, else hours below 24, else days below 7, each within its unit; the date itself exactly from a week on |
| ActivityLogs.RenderIsInjective | components/activity-logs-page.tsx:145-158 | apart from the locale date, two labels are equal exactly when the ages are: both the bucket and the count can be read back from a label |
| TaskModal.Load | components/task-modal.tsx:39-57 | opening with a task loads exactly its title, description, priority, assignee and progress; without one the form is "", "", medium, the first assignee, 0 |
| TaskModal.FindByName | components/task-modal.tsx:178 | `assignees.find` by name: a listed person with that name, or none exactly when no listed person has it |
| TaskModal.SelectAssignee | components/task-modal.tsx:177-179 | choosing a listed name selects that person; any other name selects the first assignee; the other fields stay |
| TaskModal.Submit | components/task-modal.tsx:59-65 | a blank or whitespace-only title neither submits nor closes; any other title submits the whole form, title untrimmed, and closes |
| TaskModal.ToPatch | components/task-modal.tsx:63 | the emitted form carries exactly the five form fields, never id, status or timestamps |
| TaskModal.WhitespaceTitleRejected | components/task-modal.tsx:59-61 | a title made only of white space is refused |
| ColumnModal.SetTitle | components/column-modal.tsx:95 | typing replaces the title and keeps the colour |
| ColumnModal.SelectColor | components/column-modal.tsx:112 | clicking an option sets the colour to that option's value and keeps the title |
| ColumnModal.Submit | components/column-modal.tsx:33-41 | a blank title: no submit, no reset, no close; otherwise `{title, color}` is emitted untrimmed, the title resets to "", the colour to the first option, and the modal closes |
| ColumnModal.Run | components/column-modal.tsx:30-41 | over any sequence of interactions there are never more drafts than submit events, so a run without a submit emits none |
| ColumnModal.RunKeepsColor | components/column-modal.tsx:18-41 | whatever the user does, the selected colour stays one of the rendered options |
| ColumnModal.RunDraftsWellFormed | components/column-modal.tsx:33-41 | every draft handed to `onSubmit` has a non-blank title and one of the options as its colour |
| ColumnModal.RunKeepsColorAnOption | components/column-modal.tsx:18-41 | whatever the user does, the selected colour is always one of the eight option values, and every emitted draft has a non-blank title and an option colour (the two lemmas above, stated together) |
| ColumnModal.InitialColorIsOption | components/column-modal.tsx:31 | the colour starts as the first option |
| Text.TrimIsSlice | components/task-modal.tsx:61 | `Trim(s)`, the model of `s.trim()`, is a slice of `s` that neither starts nor ends with white space, and everything cut off on either side is white space |
| Text.IsBlank | components/column-modal.tsx:35 | `!s.trim()` holds exactly when every character of `s` is ECMAScript white space or a line terminator |
| Text.NatToString | components/activity-logs-page.tsx:150 | a count renders as at least one decimal digit with no leading zero |
| Text.TrimStart | components/column-modal.tsx:35 | leading trim: removes only white space and stops at the first non-white character |
| Text.TrimEnd | components/column-modal.tsx:35 | trailing trim: removes only white space and stops at the last non-white character |
| Text.IntToString | components/activity-logs-page.tsx:56 | the decimal rendering of a progress value starts with a minus sign exactly when the value is negative, and the digits after it read back as the value's magnitude |
| Text.ParseNatToString | components/activity-logs-page.tsx:150 | reading back a rendered count gives the count |
| JsMath.RoundDiv | components/reports-page.tsx:24 | `Math.round(n / d)`: the integer nearest `n / d`, halves rounding up |
| JsMath.Percent | components/reports-page.tsx:17 | `Math.round(100 * part / total)`: within 0..100 for a part of the total, 100 for the whole and 0 for none |
| Sorting.SortBy | components/activity-logs-page.tsx:85 | the sort returns a permutation of its input, in non-decreasing key order |
| Sorting.SortStable | components/activity-logs-page.tsx:85 | the elements sharing any one key keep their original relative order |
| Sorting.SortSortedIsIdentity | components/kanban-board.tsx:246 | sorting an already ordered list leaves it as it is |

## Left out

- Rendering and animation (framer-motion, Tailwind classes, icons, badges) are not modelled: they are presentation only.
- The sidebar, header, task card, column card and floating button components are not modelled for the same reason.
- The settings and profile pages and the export button are not modelled. They do browser storage, file download and timers, and the export button's counts repeat the reports aggregates.
- Toast notifications are not modelled: they are side effects that hold no state.
- dnd-kit gesture mechanics are not modelled: the 10 px activation distance and `closestCorners` collision detection. The drop target is an abstract optional id.
- `generateId` (from `lib/utils`) is not part of this model; fresh ids are parameters. Freshness appears as a precondition only where a lemma needs it.
- `new Date()` is a parameter `now`. Every seed task is stamped with the same `now`, although the source calls `new Date()` once per field.
- Kanban.DisplayColumns: the source sorts the column array in place during render (`columns.sort` mutates React state). The model treats the display order as a view computed from the column list and leaves the list itself unchanged.
- Column.gradient: the gradient class string built from the colour name is presentation and is not part of the `Column` datatype.
- Reports.ShareBar and Analytics.StatusBar: bar widths use exact rationals (`real`), not IEEE doubles. Floating-point rounding of `count / total * 100` is not modelled.
- Reports.CompletionRate, Analytics.Productivity, Analytics.CriticalTasksRate and Reports.AverageProgress: the rounded percentages are computed exactly. `Math.round` of a double quotient could in principle differ at an exact half after floating-point error.
- Analytics.ThisWeekTasks: "a week ago" is `now` minus 7 × 24 hours of milliseconds. The calendar and daylight-saving behaviour of `setDate(getDate() - 7)` is not modelled.
- ActivityLogs.FormatTimeAgo: the locale date string shown after a week is supplied by the caller of `RenderTimeAgo`. Locale formatting is not modelled.
- ActivityLogs.GeneratedLogIsStable: stated per sort key, meaning per negated timestamp.
- ActivityLogs.RawLogs and ActivityLogs.EntriesFor: the `id` and `details` strings are built as in the source, but only kind, user, task title and timestamp are constrained by contracts.
- TaskModal.Submit: the progress slider's bounds (`max={100}`, `step={5}`) are not modelled, so a form's progress is any integer.
- ColumnModal.Run: opening and closing the modal (`isOpen`) is not modelled; the form state persists across openings as it does in the source.

=== FILE: activity_logs.dfy ===
/** The activity log page (`components/activity-logs-page.tsx`). The log is not
    recorded: it is synthesised from the current tasks by fixed rules, then
    sorted newest first. Each entry's age is shown in coarse buckets. */
module ActivityLogs {
  import opened Seqs
  import opened Sorting
  import opened TaskTypes
  import Text

  datatype Kind = Created | Updated | Completed | Deleted | Moved

  datatype Entry = Entry(
    id: string,
    kind: Kind,
    user: Person,
    task: string,
    timestamp: int,
    details: string)

  /** The people entries are attributed to, in rotation by task position. */
  const Users: seq<Person> := [Alice, Bob, Carol]

  const MinuteMs: int := 60 * 1000
  const HourMs: int := 60 * MinuteMs
  const DayMs: int := 24 * HourMs

  function IsKind(k: Kind): Entry -> bool {
    (e: Entry) => e.kind == k
  }

  /** A task that has started but not finished. */
  const HasMidProgress: Task -> bool := (t: Task) => 0 < t.progress < 100

  function CreatedEntry(t: Task, user: Person): (e: Entry)
    ensures e.kind == Created && e.timestamp == t.createdAt
  {
    Entry(t.id + "-created", Created, user, t.title, t.createdAt,
          "Created new task with " + PriorityName(t.priority) + " priority")
  }

  function UpdatedEntry(t: Task, user: Person): (e: Entry)
    ensures e.kind == Updated && e.timestamp == t.updatedAt - 30 * MinuteMs
  {
    Entry(t.id + "-updated", Updated, user, t.title, t.updatedAt - 30 * MinuteMs,
          "Updated progress to " + Text.IntToString(t.progress) + "%")
  }

  function CompletedEntry(t: Task, user: Person): (e: Entry)
    ensures e.kind == Completed && e.timestamp == t.updatedAt
  {
    Entry(t.id + "-completed", Completed, user, t.title, t.updatedAt, "Marked task as completed")
  }

  function MovedEntry(t: Task, user: Person): (e: Entry)
    ensures e.kind == Moved && e.timestamp == t.updatedAt - 60 * MinuteMs
  {
    Entry(t.id + "-moved", Moved, user, t.title, t.updatedAt - 60 * MinuteMs,
          "Moved from To Do to In Progress")
  }

  /** `[e]` when `cond` holds, otherwise nothing: one conditional `push`. */
  function Optional(cond: bool, e: Entry): (r: seq<Entry>)
    ensures |r| == if cond then 1 else 0
    ensures forall x :: x in r <==> cond && x == e
  {
    if cond then [e] else []
  }

  /** The entries the task at position `index` contributes, in the order pushed:
      created; updated if part done; completed if done; moved if in progress. */
  function EntriesFor(t: Task, index: nat): (r: seq<Entry>)
    ensures 1 <= |r| <= 3
    ensures forall i :: 0 <= i < |r| ==> r[i].user == Users[index % 3] && r[i].task == t.title
  {
    var user := Users[index % |Users|];
    [CreatedEntry(t, user)]
    + Optional(0 < t.progress < 100, UpdatedEntry(t, user))
    + Optional(t.status == Done, CompletedEntry(t, user))
    + Optional(t.status == InProgress, MovedEntry(t, user))
  }

  /** The tasks that give rise to an entry of kind `k`. */
  function Source(k: Kind): Task -> bool {
    match k
    case Created => (t: Task) => true
    case Updated => HasMidProgress
    case Completed => HasStatus(Done)
    case Moved => HasStatus(InProgress)
    case Deleted => (t: Task) => false
  }

  lemma {:induction false} CountOptional(cond: bool, e: Entry, k: Kind)
    ensures Count(Optional(cond, e), IsKind(k)) == if cond && e.kind == k then 1 else 0
  {
    if cond { assert [e][1..] == []; }
  }

  /** Four conditional pushes of entries of four distinct kinds hold exactly
      one entry of each kind pushed. */
  lemma {:induction false} CountPushes(e1: Entry, e2: Entry, e3: Entry, e4: Entry, b2: bool, b3: bool, b4: bool, k: Kind)
    requires e1.kind == Created && e2.kind == Updated && e3.kind == Completed && e4.kind == Moved
    ensures Count([e1] + Optional(b2, e2) + Optional(b3, e3) + Optional(b4, e4), IsKind(k))
         == (if k == Created then 1 else 0) + (if b2 && k == Updated then 1 else 0)
          + (if b3 && k == Completed then 1 else 0) + (if b4 && k == Moved then 1 else 0)
  {
    var p := IsKind(k);
    var o2, o3, o4 := Optional(b2, e2), Optional(b3, e3), Optional(b4, e4);
    assert Count([e1] + o2 + o3 + o4, p) == Count([e1], p) + Count(o2, p) + Count(o3, p) + Count(o4, p) by {
      CountConcat([e1] + o2 + o3, o4, p);
      CountConcat([e1] + o2, o3, p);
      CountConcat([e1], o2, p);
    }
    assert Count([e1], p) == if k == Created then 1 else 0 by {
      CountOptional(true, e1, k);
      assert Optional(true, e1) == [e1];
    }
    CountOptional(b2, e2, k);
    CountOptional(b3, e3, k);
    CountOptional(b4, e4, k);
  }

  /** A task contributes exactly one entry of each kind it is a source of, and none of the others. */
  lemma {:induction false} EntriesForCountKind(t: Task, index: nat, k: Kind)
    ensures Count(EntriesFor(t, index), IsKind(k)) == if Source(k)(t) then 1 else 0
  {
    var user := Users[index % |Users|];
    CountPushes(CreatedEntry(t, user), UpdatedEntry(t, user), CompletedEntry(t, user), MovedEntry(t, user),
                0 < t.progress < 100, t.status == Done, t.status == InProgress, k);
    assert t.status != Done || t.status != InProgress;
  }

  /** What one task contributes: between one and three entries, with the
      timestamps the rules give each kind. */
  lemma {:induction false} EntriesForShape(t: Task, index: nat)
    ensures |EntriesFor(t, index)| == 1 + (if 0 < t.progress < 100 then 1 else 0)
      + (if t.status == Done then 1 else 0) + (if t.status == InProgress then 1 else 0)
    ensures forall e :: e in EntriesFor(t, index) ==>
      && (e.kind == Created ==> e.timestamp == t.createdAt)
      && (e.kind == Updated ==> e.timestamp == t.updatedAt - 30 * MinuteMs)
      && (e.kind == Completed ==> e.timestamp == t.updatedAt)
      && (e.kind == Moved ==> e.timestamp == t.updatedAt - 60 * MinuteMs)
      && e.kind != Deleted
  {
  }

  /** The entries of all tasks, in task order, before sorting. */
  function RawLogs(tasks: seq<Task>): (r: seq<Entry>)
    ensures |tasks| <= |r| <= 3 * |tasks|
  {
    if |tasks| == 0 then []
    else RawLogs(tasks[..|tasks| - 1]) + EntriesFor(tasks[|tasks| - 1], |tasks| - 1)
  }

  /** Over the whole list, the entries of kind `k` are as many as the tasks that are its source. */
  lemma {:induction false} RawLogsCountKind(tasks: seq<Task>, k: Kind)
    ensures Count(RawLogs(tasks), IsKind(k)) == Count(tasks, Source(k))
  {
    if |tasks| > 0 {
      var init := tasks[..|tasks| - 1];
      var last := tasks[|tasks| - 1];
      RawLogsCountKind(init, k);
      EntriesForCountKind(last, |tasks| - 1, k);
      CountConcat(RawLogs(init), EntriesFor(last, |tasks| - 1), IsKind(k));
      CountSnoc(tasks, Source(k));
    }
  }

  lemma {:induction false} RawLogsLength(tasks: seq<Task>)
    ensures |RawLogs(tasks)| == |tasks| + Count(tasks, HasMidProgress)
      + Count(tasks, HasStatus(Done)) + Count(tasks, HasStatus(InProgress))
  {
    if |tasks| > 0 {
      var init := tasks[..|tasks| - 1];
      var last := tasks[|tasks| - 1];
      RawLogsLength(init);
      EntriesForShape(last, |tasks| - 1);
      CountSnoc(tasks, HasMidProgress);
      CountSnoc(tasks, HasStatus(Done));
      CountSnoc(tasks, HasStatus(InProgress));
    }
  }

  /** Over the whole list: one created entry per task, an updated entry per
      task part done, a completed entry per done task and a moved entry per
      task in progress. */
  lemma {:induction false} RawLogsCounts(tasks: seq<Task>)
    ensures Count(RawLogs(tasks), IsKind(Created)) == |tasks|
    ensures Count(RawLogs(tasks), IsKind(Updated)) == Count(tasks, HasMidProgress)
    ensures Count(RawLogs(tasks), IsKind(Completed)) == Count(tasks, HasStatus(Done))
    ensures Count(RawLogs(tasks), IsKind(Moved)) == Count(tasks, HasStatus(InProgress))
  {
    assert Count(RawLogs(tasks), IsKind(Created)) == |tasks| by {
      RawLogsCountKind(tasks, Created);
      CountFull(tasks, Source(Created));
    }
    assert Count(RawLogs(tasks), IsKind(Updated)) == Count(tasks, HasMidProgress) by {
      RawLogsCountKind(tasks, Updated);
      assert Source(Updated) == HasMidProgress;
    }
    assert Count(RawLogs(tasks), IsKind(Completed)) == Count(tasks, HasStatus(Done)) by {
      RawLogsCountKind(tasks, Completed);
      assert Source(Completed) == HasStatus(Done);
    }
    assert Count(RawLogs(tasks), IsKind(Moved)) == Count(tasks, HasStatus(InProgress)) by {
      RawLogsCountKind(tasks, Moved);
      assert Source(Moved) == HasStatus(InProgress);
    }
  }

  /** Deletions leave no trace: the synthesised log never holds a deleted entry. */
  lemma {:induction false} NoDeletedEntries(tasks: seq<Task>)
    ensures Count(RawLogs(tasks), IsKind(Deleted)) == 0
  {
    RawLogsCountKind(tasks, Deleted);
    CountZero(tasks, Source(Deleted));
  }

  /** `e` is one of the entries some task of the list contributes. */
  ghost predicate FromSomeTask(tasks: seq<Task>, e: Entry) {
    exists i :: 0 <= i < |tasks| && e in EntriesFor(tasks[i], i)
  }

  /** Every entry of the log belongs to some task's entries. */
  lemma {:induction false} RawLogsFromTasks(tasks: seq<Task>)
    ensures forall j :: 0 <= j < |RawLogs(tasks)| ==> FromSomeTask(tasks, RawLogs(tasks)[j])
  {
    if |tasks| > 0 {
      var n := |tasks|;
      var init := tasks[..n - 1];
      RawLogsFromTasks(init);
      var r := RawLogs(tasks);
      var head := RawLogs(init);
      var tail := EntriesFor(tasks[n - 1], n - 1);
      assert r == head + tail;
      forall j | 0 <= j < |r|
        ensures FromSomeTask(tasks, r[j])
      {
        if j < |head| {
          assert FromSomeTask(init, head[j]);
          var i :| 0 <= i < |init| && head[j] in EntriesFor(init[i], i);
          assert init[i] == tasks[i];
          assert r[j] == head[j];
        } else {
          assert r[j] == tail[j - |head|];
        }
      }
    }
  }

  /** Every entry a task's rules produce is in the log. */
  lemma {:induction false} TasksInRawLogs(tasks: seq<Task>)
    ensures forall i, e :: 0 <= i < |tasks| && e in EntriesFor(tasks[i], i) ==> e in RawLogs(tasks)
  {
    if |tasks| > 0 {
      var n := |tasks|;
      var init := tasks[..n - 1];
      TasksInRawLogs(init);
      assert RawLogs(tasks) == RawLogs(init) + EntriesFor(tasks[n - 1], n - 1);
      forall i, e | 0 <= i < n && e in EntriesFor(tasks[i], i)
        ensures e in RawLogs(tasks)
      {
        if i < n - 1 {
          assert init[i] == tasks[i];
        }
      }
    }
  }

  /** The log holds exactly the entries the tasks' rules produce: a summary
      of `RawLogsFromTasks` and `TasksInRawLogs`, stated together. */
  lemma {:induction false} RawLogsOrigin(tasks: seq<Task>)
    ensures forall j :: 0 <= j < |RawLogs(tasks)| ==> FromSomeTask(tasks, RawLogs(tasks)[j])
    ensures forall i, e :: 0 <= i < |tasks| && e in EntriesFor(tasks[i], i) ==> e in RawLogs(tasks)
  {
    RawLogsFromTasks(tasks);
    TasksInRawLogs(tasks);
  }

  function NewestFirst(e: Entry): int {
    -e.timestamp
  }

  /** `generateActivityLogs`: the synthesised entries, newest first; entries
      with equal timestamps stay in the order they were generated. */
  function GenerateActivityLogs(tasks: seq<Task>): (r: seq<Entry>)
    ensures forall i, j :: 0 <= i < j < |r| ==> r[i].timestamp >= r[j].timestamp
    ensures multiset(r) == multiset(RawLogs(tasks))
  {
    var r := SortBy(RawLogs(tasks), NewestFirst);
    assert SortedBy(r, NewestFirst);
    r
  }

  /** Ties keep their generation order: for every sort key `k` (a negated
      timestamp), the entries carrying it appear in the log in the order they
      were generated. */
  lemma {:induction false} GeneratedLogIsStable(tasks: seq<Task>, k: int)
    ensures Filter(GenerateActivityLogs(tasks), KeyIs(NewestFirst, k))
         == Filter(RawLogs(tasks), KeyIs(NewestFirst, k))
  {
    assert GenerateActivityLogs(tasks) == SortBy(RawLogs(tasks), NewestFirst);
    SortStable(RawLogs(tasks), NewestFirst, k);
  }

  /** The four counters at the head of the page. */
  lemma {:induction false} ActivityCounters(tasks: seq<Task>)
    ensures var logs := GenerateActivityLogs(tasks);
      && Count(logs, IsKind(Created)) == |tasks|
      && Count(logs, IsKind(Completed)) == Count(tasks, HasStatus(Done))
      && Count(logs, IsKind(Updated)) == Count(tasks, HasMidProgress)
      && Count(logs, IsKind(Moved)) == Count(tasks, HasStatus(InProgress))
      && |logs| == |tasks| + Count(tasks, HasMidProgress)
                   + Count(tasks, HasStatus(Done)) + Count(tasks, HasStatus(InProgress))
  {
    RawLogsCounts(tasks);
    RawLogsLength(tasks);
    var raw := RawLogs(tasks);
    assert GenerateActivityLogs(tasks) == SortBy(raw, NewestFirst);
    forall k: Kind
      ensures Count(GenerateActivityLogs(tasks), IsKind(k)) == Count(raw, IsKind(k))
    {
      SortCount(raw, NewestFirst, IsKind(k));
    }
  }

  // ---------------------------------------------------------------------------
  // Relative times

  /** The age label of an entry. */
  datatype TimeAgo = JustNow | MinutesAgo(minutes: nat) | HoursAgo(hours: nat)
                   | DaysAgo(days: nat) | OnDate(timestamp: int)

  /** `formatTimeAgo`: whole minutes elapsed (floored), then whole hours, then
      whole days; a week or more shows the date itself. */
  function FormatTimeAgo(now: int, timestamp: int): (r: TimeAgo)
    ensures r.JustNow? <==> now - timestamp < 60000
    ensures r.MinutesAgo? ==>
      1 <= r.minutes < 60 && r.minutes * 60000 <= now - timestamp < (r.minutes + 1) * 60000
    ensures r.HoursAgo? ==>
      1 <= r.hours < 24 && r.hours * 3600000 <= now - timestamp < (r.hours + 1) * 3600000
    ensures r.DaysAgo? ==>
      1 <= r.days < 7 && r.days * 86400000 <= now - timestamp < (r.days + 1) * 86400000
    ensures r.OnDate? <==> now - timestamp >= 7 * 86400000
    ensures r.OnDate? ==> r.timestamp == timestamp
  {
    var diff := now - timestamp;
    var minutes := diff / MinuteMs;
    if minutes < 1 then JustNow
    else if minutes < 60 then MinutesAgo(minutes)
    else
      var hours := minutes / 60;
      if hours < 24 then HoursAgo(hours)
      else
        var days := hours / 24;
        if days < 7 then DaysAgo(days) else OnDate(timestamp)
  }

  /** The text of a label; the locale date string is supplied by the caller.
      A relative label is the count in decimal, without a leading zero,
      followed by its unit and " ago", so both can be read back from it. */
  function RenderTimeAgo(a: TimeAgo, localeDate: string): (r: string)
    ensures a.JustNow? ==> r == "Just now"
    ensures a.OnDate? ==> r == localeDate
    ensures a.MinutesAgo? || a.HoursAgo? || a.DaysAgo? ==>
      var n := |r| - |UnitSuffix(a)|;
      && n >= 1 && r[n..] == UnitSuffix(a)
      && Text.IsDigits(r[..n]) && Text.ParseDigits(r[..n]) == Amount(a)
      && (n > 1 ==> r[0] != '0')
  {
    match a
    case JustNow => "Just now"
    case MinutesAgo(m) => Text.ParseNatToString(m); Text.NatToString(m) + "m ago"
    case HoursAgo(h) => Text.ParseNatToString(h); Text.NatToString(h) + "h ago"
    case DaysAgo(d) => Text.ParseNatToString(d); Text.NatToString(d) + "d ago"
    case OnDate(_) => localeDate
  }

  /** The trailing part of a relative label: its unit and " ago". */
  function UnitSuffix(a: TimeAgo): string
    requires a.MinutesAgo? || a.HoursAgo? || a.DaysAgo?
  {
    match a
    case MinutesAgo(_) => "m ago"
    case HoursAgo(_) => "h ago"
    case DaysAgo(_) => "d ago"
  }

  function Amount(a: TimeAgo): nat
    requires a.MinutesAgo? || a.HoursAgo? || a.DaysAgo?
  {
    match a
    case MinutesAgo(m) => m
    case HoursAgo(h) => h
    case DaysAgo(d) => d
  }

  /** Equal strings with equally long tails have equal heads and tails. */
  lemma {:induction false} SplitEqual(x: string, u: string, y: string, v: string)
    requires x + u == y + v && |u| == |v|
    ensures x == y && u == v
  {
    assert x == (x + u)[..|x|];
    assert y == (y + v)[..|y|];
    assert u == (x + u)[|x|..];
    assert v == (y + v)[|y|..];
  }

  /** "Just now" is the one label that does not end in "ago". */
  lemma {:induction false} LastCharOfLabel(a: TimeAgo)
    requires !a.OnDate?
    ensures var r := RenderTimeAgo(a, "");
      |r| >= 1 && r[|r| - 1] == if a.JustNow? then 'w' else 'o'
  {
  }

  /** Apart from the date shown after a week, a label tells its bucket and
      its count: two labels are equal exactly when the ages are. */
  lemma {:induction false} RenderIsInjective(a: TimeAgo, b: TimeAgo)
    requires !a.OnDate? && !b.OnDate?
    ensures RenderTimeAgo(a, "") == RenderTimeAgo(b, "") <==> a == b
  {
    var ra, rb := RenderTimeAgo(a, ""), RenderTimeAgo(b, "");
    if ra == rb && a != b {
      if a.JustNow? || b.JustNow? {
        LastCharOfLabel(a);
        LastCharOfLabel(b);
      } else {
        assert ra == Text.NatToString(Amount(a)) + UnitSuffix(a);
        assert rb == Text.NatToString(Amount(b)) + UnitSuffix(b);
        SplitEqual(Text.NatToString(Amount(a)), UnitSuffix(a), Text.NatToString(Amount(b)), UnitSuffix(b));
        Text.NatToStringInjective(Amount(a), Amount(b));
      }
    }
  }
}

=== FILE: analytics.dfy ===
/** The analytics page (`components/analytics-page.tsx`): productivity, tasks
    created in the last week, the completion rate of high-priority tasks, and
    the status distribution bars. */
module Analytics {
  import opened Seqs
  import opened TaskTypes
  import JsMath
  import Kanban
  import Reports

  /** Seven days in milliseconds; the calendar arithmetic of `setDate` is not modelled. */
  const WeekMs: int := 7 * 24 * 60 * 60 * 1000

  /** The productivity score: the share of tasks that are done, rounded. */
  function Productivity(tasks: seq<Task>): (r: int)
    ensures 0 <= r <= 100
    ensures |tasks| == 0 ==> r == 0
    ensures |tasks| > 0 ==>
      2 * |tasks| * r - |tasks| <= 200 * Count(tasks, HasStatus(Done)) < 2 * |tasks| * r + |tasks|
  {
    var total := |tasks|;
    var completed := Count(tasks, HasStatus(Done));
    if total > 0 then JsMath.Percent(completed, total) else 0
  }

  /** The analytics productivity and the reports completion rate are the same
      number on every task list. */
  lemma {:induction false} ProductivityIsCompletionRate(tasks: seq<Task>)
    ensures Productivity(tasks) == Reports.CompletionRate(tasks)
  {
  }

  function CreatedSince(cutoff: int): Task -> bool {
    (t: Task) => t.createdAt >= cutoff
  }

  /** The number of tasks created at or after one week before `now`. */
  function ThisWeekTasks(tasks: seq<Task>, now: int): (n: nat)
    ensures n <= |tasks|
    ensures n == 0 <==> forall i :: 0 <= i < |tasks| ==> tasks[i].createdAt < now - WeekMs
    ensures n == |tasks| <==> forall i :: 0 <= i < |tasks| ==> tasks[i].createdAt >= now - WeekMs
  {
    CountZero(tasks, CreatedSince(now - WeekMs));
    CountFull(tasks, CreatedSince(now - WeekMs));
    Count(tasks, CreatedSince(now - WeekMs))
  }

  /** Appending a task never lowers the weekly count, and raises it by one
      exactly when the task is recent. */
  lemma {:induction false} ThisWeekTasksAppend(tasks: seq<Task>, t: Task, now: int)
    ensures ThisWeekTasks(tasks + [t], now)
         == ThisWeekTasks(tasks, now) + (if t.createdAt >= now - WeekMs then 1 else 0)
    ensures ThisWeekTasks(tasks + [t], now) >= ThisWeekTasks(tasks, now)
  {
    CountConcat(tasks, [t], CreatedSince(now - WeekMs));
  }

  /** A task just created from the form is counted as this week's. */
  lemma {:induction false} CreatedTaskCountsThisWeek(b: Kanban.Board, data: TaskPatch, freshId: string, now: int)
    ensures ThisWeekTasks(Kanban.CreateTask(b, data, freshId, now).tasks, now)
         == ThisWeekTasks(b.tasks, now) + 1
  {
    var r := Kanban.CreateTask(b, data, freshId, now);
    assert r.tasks == b.tasks + [r.tasks[|b.tasks|]];
    ThisWeekTasksAppend(b.tasks, r.tasks[|b.tasks|], now);
  }

  const IsHighAndDone: Task -> bool := (t: Task) => t.priority == High && t.status == Done

  /** High-priority tasks that are done never outnumber high-priority tasks. */
  lemma {:induction false} HighDoneWithinHigh(tasks: seq<Task>)
    ensures Count(tasks, IsHighAndDone) <= Count(tasks, HasPriority(High))
  {
    CountMonotone(tasks, IsHighAndDone, HasPriority(High));
  }

  /** The critical-task rate: the share of high-priority tasks that are done,
      rounded, or 0 when there are none. */
  function CriticalTasksRate(tasks: seq<Task>): (r: int)
    ensures 0 <= r <= 100
    ensures Count(tasks, HasPriority(High)) == 0 ==> r == 0
    ensures var high := Count(tasks, HasPriority(High));
      high > 0 ==> 2 * high * r - high <= 200 * Count(tasks, IsHighAndDone) < 2 * high * r + high
  {
    var highCompleted := Count(tasks, IsHighAndDone);
    var highTotal := Count(tasks, HasPriority(High));
    HighDoneWithinHigh(tasks);
    if highTotal > 0 then JsMath.Percent(highCompleted, highTotal) else 0
  }

  /** One row of the status distribution: the number shown and the bar width. */
  datatype Bar = Bar(count: nat, width: real)

  /** The distribution row of a status; the width is guarded to 0 on an empty list. */
  function StatusBar(tasks: seq<Task>, s: Status): (b: Bar)
    ensures b.count == |Kanban.TasksByStatus(tasks, s)|
    ensures |tasks| == 0 ==> b.width == 0.0
    ensures 0.0 <= b.width <= 100.0
    ensures |tasks| > 0 ==> b.width * |tasks| as real == b.count as real * 100.0
  {
    var n := Count(tasks, HasStatus(s));
    Bar(n, Reports.ShareBar(n, |tasks|))
  }

  /** The three rows shown: to do, in progress, completed. */
  function Distribution(tasks: seq<Task>): (r: (Bar, Bar, Bar))
    ensures r.0.count + r.1.count + r.2.count <= |tasks|
    ensures r.0.count == |Kanban.TasksByStatus(tasks, Todo)|
    ensures r.1.count == |Kanban.TasksByStatus(tasks, InProgress)|
    ensures r.2.count == |Kanban.TasksByStatus(tasks, Done)|
  {
    Reports.StatusCountsBounded(tasks);
    (StatusBar(tasks, Todo), StatusBar(tasks, InProgress), StatusBar(tasks, Done))
  }
}

=== FILE: column_modal.dfy ===
/** The column editor (`components/column-modal.tsx`): a title field, a choice
    among eight colour themes, and a submit guard that refuses a blank title and
    resets the form after a successful submit. */
module ColumnModal {
  import opened Wrappers
  import opened Seqs
  import Text

  /** The `value` of each colour option, in display order. */
  const ColorOptions: seq<string> := [
    "from-blue-500 to-blue-600",
    "from-purple-500 to-purple-600",
    "from-green-500 to-green-600",
    "from-red-500 to-red-600",
    "from-orange-500 to-orange-600",
    "from-pink-500 to-pink-600",
    "from-indigo-500 to-indigo-600",
    "from-teal-500 to-teal-600"
  ]

  datatype State = State(title: string, selectedColor: string)

  /** The state the form starts in and returns to after a submit. */
  const Initial: State := State("", ColorOptions[0])

  /** What the form hands to `onSubmit`. */
  datatype Draft = Draft(title: string, color: string)

  datatype Submission = Submission(state: State, emitted: Option<Draft>, closed: bool)

  predicate ColorIsOption(s: State) {
    s.selectedColor in ColorOptions
  }

  /** Typing in the title field. */
  function SetTitle(s: State, text: string): (r: State)
    ensures r.title == text && r.selectedColor == s.selectedColor
  {
    s.(title := text)
  }

  /** Clicking the colour button at position `option`. */
  function SelectColor(s: State, option: nat): (r: State)
    requires option < |ColorOptions|
    ensures ColorIsOption(r) && r.selectedColor == ColorOptions[option]
    ensures r.title == s.title
  {
    s.(selectedColor := ColorOptions[option])
  }

  /** The submit handler. */
  function Submit(s: State): (r: Submission)
    ensures Text.IsBlank(s.title) ==> r.state == s && r.emitted.None? && !r.closed
    ensures !Text.IsBlank(s.title) ==>
      && r.emitted == Some(Draft(s.title, s.selectedColor))
      && r.state.title == "" && r.state.selectedColor == ColorOptions[0]
      && r.closed
  {
    if Text.IsBlank(s.title) then Submission(s, None, false)
    else Submission(Initial, Some(Draft(s.title, s.selectedColor)), true)
  }

  /** The user's interactions with the form. */
  datatype Event = Typed(text: string) | Picked(option: nat) | Submitted

  const IsSubmit: Event -> bool := (e: Event) => e.Submitted?

  /** Only the eight rendered colour buttons can be clicked. */
  predicate Clickable(events: seq<Event>) {
    forall i :: 0 <= i < |events| ==> events[i].Picked? ==> events[i].option < |ColorOptions|
  }

  /** Feeds a sequence of interactions to the form: the final state and every
      draft handed to `onSubmit`, in order. Only a submit can hand over a
      draft, so there are never more drafts than submits. */
  function Run(s: State, events: seq<Event>): (r: (State, seq<Draft>))
    requires Clickable(events)
    ensures |r.1| <= Count(events, IsSubmit)
    decreases |events|
  {
    if |events| == 0 then (s, [])
    else
      match events[0]
      case Typed(text) => Run(SetTitle(s, text), events[1..])
      case Picked(option) => Run(SelectColor(s, option), events[1..])
      case Submitted =>
        var sub := Submit(s);
        var rest := Run(sub.state, events[1..]);
        (rest.0, (if sub.emitted.Some? then [sub.emitted.value] else []) + rest.1)
  }

  /** Whatever the user does, the selected colour stays one of the options. */
  lemma {:induction false} RunKeepsColor(s: State, events: seq<Event>)
    requires ColorIsOption(s) && Clickable(events)
    ensures ColorIsOption(Run(s, events).0)
    decreases |events|
  {
    if |events| > 0 {
      assert Clickable(events[1..]);
      match events[0]
      case Typed(text) =>
        RunKeepsColor(SetTitle(s, text), events[1..]);
      case Picked(option) =>
        RunKeepsColor(SelectColor(s, option), events[1..]);
      case Submitted =>
        assert ColorOptions[0] in ColorOptions;
        RunKeepsColor(Submit(s).state, events[1..]);
    }
  }

  /** Every draft handed over has a non-blank title and an option colour. */
  lemma {:induction false} RunDraftsWellFormed(s: State, events: seq<Event>)
    requires ColorIsOption(s) && Clickable(events)
    ensures forall i :: 0 <= i < |Run(s, events).1| ==>
      var d := Run(s, events).1[i];
      d.color in ColorOptions && !Text.IsBlank(d.title)
    decreases |events|
  {
    if |events| > 0 {
      assert Clickable(events[1..]);
      match events[0]
      case Typed(text) =>
        RunDraftsWellFormed(SetTitle(s, text), events[1..]);
      case Picked(option) =>
        RunDraftsWellFormed(SelectColor(s, option), events[1..]);
      case Submitted =>
        var sub := Submit(s);
        var rest := Run(sub.state, events[1..]);
        var emitted := if sub.emitted.Some? then [sub.emitted.value] else [];
        assert Run(s, events).1 == emitted + rest.1;
        assert ColorOptions[0] in ColorOptions;
        RunDraftsWellFormed(sub.state, events[1..]);
    }
  }

  /** Whatever the user does, the selected colour is one of the options, and
      every emitted draft has a non-blank title and an option colour: a
      summary of `RunKeepsColor` and `RunDraftsWellFormed`, stated together. */
  lemma {:induction false} RunKeepsColorAnOption(s: State, events: seq<Event>)
    requires ColorIsOption(s) && Clickable(events)
    ensures ColorIsOption(Run(s, events).0)
    ensures forall i :: 0 <= i < |Run(s, events).1| ==>
      var d := Run(s, events).1[i];
      d.color in ColorOptions && !Text.IsBlank(d.title)
  {
    RunKeepsColor(s, events);
    RunDraftsWellFormed(s, events);
  }

  /** The form starts on an option. */
  lemma {:induction false} InitialColorIsOption()
    ensures ColorIsOption(Initial) && Initial.selectedColor == ColorOptions[0]
  {
    assert ColorOptions[0] in ColorOptions;
  }
}

=== FILE: js_math.dfy ===
/** `Math.round(n / d)` for a positive denominator, on exact integers.
    `Math.round` rounds to the nearest integer with halves going up, that is
    `floor(x + 1/2)`, and `floor((2n + d) / 2d)` is exactly that for `x = n / d`.
    Dafny's `/` on `int` with a positive divisor is floor division, so it also
    agrees with `Math.round` for negative numerators. */
module JsMath {

  function RoundDiv(n: int, d: int): (r: int)
    requires d > 0
    ensures 2 * d * r - d <= 2 * n < 2 * d * r + d
  {
    var q := (2 * n + d) / (2 * d);
    assert q * (2 * d) <= 2 * n + d < q * (2 * d) + 2 * d;
    q
  }

  lemma {:induction false} MulMonotone(d: int, a: int, b: int)
    requires d > 0 && a <= b
    ensures d * a <= d * b
  {
    var k := b - a;
    assert d * b == d * a + d * k;
  }

  /** The rounded value stays within any integer bounds of the exact quotient. */
  lemma {:induction false} RoundDivBetween(n: int, d: int, lo: int, hi: int)
    requires d > 0
    requires lo * d <= n <= hi * d
    ensures lo <= RoundDiv(n, d) <= hi
  {
    var r := RoundDiv(n, d);
    if r < lo {
      MulMonotone(d, r, lo - 1);
      assert false;
    }
    if r > hi {
      MulMonotone(d, hi + 1, r);
      assert false;
    }
  }

  /** `Math.round(100 * part / total)`: a percentage of `total`, rounded. */
  function Percent(part: int, total: int): (r: int)
    requires total > 0
    ensures 2 * total * r - total <= 200 * part < 2 * total * r + total
    ensures 0 <= part <= total ==> 0 <= r <= 100
    ensures part == total ==> r == 100
    ensures part == 0 ==> r == 0
  {
    var r := RoundDiv(100 * part, total);
    assert 0 <= part <= total ==> 0 <= r <= 100 by {
      if 0 <= part <= total {
        RoundDivBetween(100 * part, total, 0, 100);
      }
    }
    assert part == total ==> r == 100 by {
      if part == total {
        RoundDivBetween(100 * part, total, 100, 100);
      }
    }
    assert part == 0 ==> r == 0 by {
      if part == 0 {
        RoundDivBetween(100 * part, total, 0, 0);
      }
    }
    r
  }
}

=== FILE: kanban.dfy ===
/** The board (`components/kanban-board.tsx`): the task list and the column
    list, replaced as a whole on every event, the slot holding the task being
    dragged, and the task being edited. Every handler is a function from the
    board before the event to the board after it; `now` and fresh ids are
    supplied by the caller. */
module Kanban {
  import opened Wrappers
  import opened Seqs
  import opened Sorting
  import opened TaskTypes
  import TaskModal
  import ColumnModal
  import Text

  /** The task shown in the drag overlay, if any. */
  datatype DragSlot = Idle | Dragging(task: Task)

  datatype Board = Board(
    tasks: seq<Task>,
    columns: seq<Column>,
    active: DragSlot,
    editing: Option<Task>)

  /** The assignee a new task gets when the form supplies none. */
  const Unassigned: Person := Person("Unassigned", Avatar("unassigned"))

  const InitialColumns: seq<Column> := [
    Column("todo", "To Do", "from-slate-500 to-slate-600", 0),
    Column("in-progress", "In Progress", "from-blue-500 to-indigo-600", 1),
    Column("done", "Done", "from-emerald-500 to-green-600", 2)
  ]

  /** The titles of the three seed tasks. */
  const SeedTitles: seq<string> := [
    "Design Premium Landing Page",
    "Implement Advanced Authentication",
    "API Documentation & Testing"]

  /** The descriptions of the three seed tasks. */
  const SeedDescriptions: seq<string> := [
    "Create a stunning, modern landing page with hero section, features showcase, and testimonials",
    "Set up secure login, registration, 2FA, and password reset with OAuth integration",
    "Complete API documentation with interactive examples and comprehensive test coverage"]

  /** The three seed tasks, all stamped with the time the page loaded. */
  function InitialTasks(now: int): seq<Task> {
    [ Task("1", SeedTitles[0], SeedDescriptions[0], Todo, High, Alice, 0, now, now),
      Task("2", SeedTitles[1], SeedDescriptions[1], InProgress, High, Bob, 75, now, now),
      Task("3", SeedTitles[2], SeedDescriptions[2], Done, Medium, Carol, 100, now, now) ]
  }

  function Initial(now: int): Board {
    Board(InitialTasks(now), InitialColumns, Idle, None)
  }

  // ---------------------------------------------------------------------------
  // Columns of tasks

  /** The tasks a column shows: those whose status is the column id, in list order. */
  function TasksByStatus(tasks: seq<Task>, s: Status): (r: seq<Task>)
    ensures forall i :: 0 <= i < |r| ==> r[i] in tasks && r[i].status == s
    ensures forall i :: 0 <= i < |tasks| && tasks[i].status == s ==> tasks[i] in r
    ensures |r| == Count(tasks, HasStatus(s))
  {
    CountIsFilterLength(tasks, HasStatus(s));
    Filter(tasks, HasStatus(s))
  }

  /** The selection keeps list order: it distributes over concatenation and keeps
      a single task exactly when its status matches. */
  lemma {:induction false} TasksByStatusKeepsOrder(a: seq<Task>, b: seq<Task>, t: Task, s: Status)
    ensures TasksByStatus(a + b, s) == TasksByStatus(a, s) + TasksByStatus(b, s)
    ensures TasksByStatus([t], s) == if t.status == s then [t] else []
  {
    FilterConcat(a, b, HasStatus(s));
  }

  /** The position of the first task with the given id (`tasks.find`). */
  function FindIndex(tasks: seq<Task>, id: string): (r: Option<nat>)
    ensures r.Some? ==> r.value < |tasks| && tasks[r.value].id == id
    ensures r.Some? ==> forall j :: 0 <= j < r.value ==> tasks[j].id != id
    ensures r.None? <==> forall j :: 0 <= j < |tasks| ==> tasks[j].id != id
  {
    if |tasks| == 0 then None
    else if tasks[0].id == id then Some(0)
    else match FindIndex(tasks[1..], id)
      case None => None
      case Some(k) => Some(k + 1)
  }

  // ---------------------------------------------------------------------------
  // Dragging

  /** `handleDragStart`: the slot holds the first task with the dragged id, or nothing. */
  function DragStart(b: Board, activeId: string): (r: Board)
    ensures r.tasks == b.tasks && r.columns == b.columns && r.editing == b.editing
    ensures r.active.Dragging? <==> exists i :: 0 <= i < |b.tasks| && b.tasks[i].id == activeId
    ensures r.active.Dragging? ==>
      exists i :: 0 <= i < |b.tasks| && b.tasks[i] == r.active.task && r.active.task.id == activeId
              && forall j :: 0 <= j < i ==> b.tasks[j].id != activeId
  {
    match FindIndex(b.tasks, activeId)
    case Some(k) => b.(active := Dragging(b.tasks[k]))
    case None => b.(active := Idle)
  }

  predicate IsColumnId(columns: seq<Column>, id: string) {
    exists i :: 0 <= i < |columns| && columns[i].id == id
  }

  /** Every task with the given id moves to `status` and is stamped with `now`. */
  function Reassign(tasks: seq<Task>, id: string, status: Status, now: int): (r: seq<Task>)
    ensures |r| == |tasks|
    ensures forall i :: 0 <= i < |tasks| && tasks[i].id == id ==>
      r[i] == tasks[i].(status := status, updatedAt := now)
    ensures forall i :: 0 <= i < |tasks| && tasks[i].id != id ==> r[i] == tasks[i]
  {
    MapWhere(tasks, HasId(id), (t: Task) => t.(status := status, updatedAt := now))
  }

  /** `handleDragEnd`: the slot is emptied; the dragged task moves only when the
      drop target is the id of a known column. */
  function DragEnd(b: Board, activeId: string, over: Option<string>, now: int): (r: Board)
    ensures r.active == Idle && r.columns == b.columns && r.editing == b.editing
    ensures over.None? || !IsColumnId(b.columns, over.value) ==> r.tasks == b.tasks
    ensures over.Some? && IsColumnId(b.columns, over.value) ==>
      && |r.tasks| == |b.tasks|
      && (forall i :: 0 <= i < |b.tasks| && b.tasks[i].id == activeId ==>
            r.tasks[i] == b.tasks[i].(status := over.value, updatedAt := now))
      && (forall i :: 0 <= i < |b.tasks| && b.tasks[i].id != activeId ==>
            r.tasks[i] == b.tasks[i])
  {
    var idle := b.(active := Idle);
    match over
    case None => idle
    case Some(target) =>
      if IsColumnId(b.columns, target) then idle.(tasks := Reassign(b.tasks, activeId, target, now))
      else idle
  }

  lemma {:induction false} ReassignLeavesOtherColumns(tasks: seq<Task>, id: string, c: Status, now: int, s: Status)
    requires s != c
    ensures Filter(Reassign(tasks, id, c, now), HasStatus(s))
         == Filter(Filter(tasks, HasStatus(s)), LacksId(id))
  {
    if |tasks| > 0 {
      var rest := tasks[1..];
      ReassignLeavesOtherColumns(rest, id, c, now, s);
      var moved := Reassign(tasks, id, c, now);
      assert moved == Reassign([tasks[0]], id, c, now) + Reassign(rest, id, c, now);
      FilterConcat(Reassign([tasks[0]], id, c, now), Reassign(rest, id, c, now), HasStatus(s));
      var head := if tasks[0].status == s then [tasks[0]] else [];
      FilterConcat(head, Filter(rest, HasStatus(s)), LacksId(id));
    }
  }

  /** After a drop on column `c`, the dragged task shows in `c`, and every other
      column shows what it showed before minus the dragged task. */
  lemma {:induction false} DropMovesTaskBetweenColumns(b: Board, activeId: string, c: Status, now: int)
    requires IsColumnId(b.columns, c)
    ensures forall i :: 0 <= i < |b.tasks| && b.tasks[i].id == activeId ==>
      DragEnd(b, activeId, Some(c), now).tasks[i] in TasksByStatus(DragEnd(b, activeId, Some(c), now).tasks, c)
    ensures forall s :: s != c ==>
      TasksByStatus(DragEnd(b, activeId, Some(c), now).tasks, s)
        == Filter(TasksByStatus(b.tasks, s), LacksId(activeId))
  {
    forall s | s != c
      ensures TasksByStatus(DragEnd(b, activeId, Some(c), now).tasks, s)
        == Filter(TasksByStatus(b.tasks, s), LacksId(activeId))
    {
      ReassignLeavesOtherColumns(b.tasks, activeId, c, now, s);
    }
  }

  /** Repeating the same drop at the same instant changes nothing more. */
  lemma {:induction false} DropIsIdempotent(b: Board, activeId: string, over: Option<string>, now: int)
    ensures DragEnd(DragEnd(b, activeId, over, now), activeId, over, now) == DragEnd(b, activeId, over, now)
  {
  }

  // ---------------------------------------------------------------------------
  // Creating, editing and deleting tasks

  /** `handleCreateTask`: one task is appended, built from the supplied fields
      and the defaults; the tasks already on the board are untouched. */
  function CreateTask(b: Board, data: TaskPatch, freshId: string, now: int): (r: Board)
    ensures |r.tasks| == |b.tasks| + 1 && r.tasks[..|b.tasks|] == b.tasks
    ensures var t := r.tasks[|b.tasks|];
      && t.id == freshId && t.status == Todo && t.progress == 0
      && t.createdAt == now && t.updatedAt == now
      && t.title == data.title.GetOr("") && t.description == data.description.GetOr("")
      && t.priority == data.priority.GetOr(Medium)
      && t.assignee == data.assignee.GetOr(Unassigned)
    ensures r.columns == b.columns && r.active == b.active && r.editing == b.editing
  {
    var t := Task(freshId, data.title.GetOr(""), data.description.GetOr(""), Todo,
                  data.priority.GetOr(Medium), data.assignee.GetOr(Unassigned), 0, now, now);
    b.(tasks := b.tasks + [t])
  }

  lemma {:induction false} FindIndexAppendFresh(tasks: seq<Task>, t: Task)
    requires forall i :: 0 <= i < |tasks| ==> tasks[i].id != t.id
    ensures FindIndex(tasks + [t], t.id) == Some(|tasks|)
  {
    if |tasks| > 0 {
      assert (tasks + [t])[1..] == tasks[1..] + [t];
      FindIndexAppendFresh(tasks[1..], t);
    }
  }

  /** With a fresh id, the new task is the one found under that id, and it is
      shown last in the to-do column. */
  lemma {:induction false} CreatedTaskIsFoundLast(b: Board, data: TaskPatch, freshId: string, now: int)
    requires forall i :: 0 <= i < |b.tasks| ==> b.tasks[i].id != freshId
    ensures FindIndex(CreateTask(b, data, freshId, now).tasks, freshId) == Some(|b.tasks|)
    ensures TasksByStatus(CreateTask(b, data, freshId, now).tasks, Todo)
         == TasksByStatus(b.tasks, Todo) + [CreateTask(b, data, freshId, now).tasks[|b.tasks|]]
  {
    var r := CreateTask(b, data, freshId, now);
    var t := r.tasks[|b.tasks|];
    assert r.tasks == b.tasks + [t];
    FindIndexAppendFresh(b.tasks, t);
    FilterConcat(b.tasks, [t], HasStatus(Todo));
  }

  /** `{ ...task, ...patch, updatedAt: now }`: each supplied field overrides, the
      rest are kept, and the update time is `now` whatever the patch says. */
  function Merge(t: Task, patch: TaskPatch, now: int): (r: Task)
    ensures r.id == patch.id.GetOr(t.id) && r.title == patch.title.GetOr(t.title)
    ensures r.description == patch.description.GetOr(t.description)
    ensures r.status == patch.status.GetOr(t.status)
    ensures r.priority == patch.priority.GetOr(t.priority)
    ensures r.assignee == patch.assignee.GetOr(t.assignee)
    ensures r.progress == patch.progress.GetOr(t.progress)
    ensures r.createdAt == patch.createdAt.GetOr(t.createdAt)
    ensures r.updatedAt == now
  {
    Task(patch.id.GetOr(t.id), patch.title.GetOr(t.title),
         patch.description.GetOr(t.description), patch.status.GetOr(t.status),
         patch.priority.GetOr(t.priority), patch.assignee.GetOr(t.assignee),
         patch.progress.GetOr(t.progress), patch.createdAt.GetOr(t.createdAt), now)
  }

  /** `handleUpdateTask`: nothing happens unless a task is being edited; then
      the patch is merged into every task with the edited id and the edit ends. */
  function UpdateTask(b: Board, patch: TaskPatch, now: int): (r: Board)
    ensures b.editing.None? ==> r == b
    ensures b.editing.Some? ==>
      && r.editing.None? && r.columns == b.columns && r.active == b.active
      && |r.tasks| == |b.tasks|
      && (forall i :: 0 <= i < |b.tasks| && b.tasks[i].id == b.editing.value.id ==>
            r.tasks[i] == Merge(b.tasks[i], patch, now))
      && (forall i :: 0 <= i < |b.tasks| && b.tasks[i].id != b.editing.value.id ==>
            r.tasks[i] == b.tasks[i])
  {
    match b.editing
    case None => b
    case Some(e) =>
      b.(tasks := MapWhere(b.tasks, HasId(e.id), (t: Task) => Merge(t, patch, now)),
         editing := None)
  }

  /** An edit submitted from the task form keeps every task's id, status and
      creation time, carries the form's five fields into the edited task, and
      never moves an update time backwards when the clock does not. */
  lemma {:induction false} FormEditKeepsIdentity(b: Board, f: TaskModal.Form, now: int)
    requires b.editing.Some?
    ensures var r := UpdateTask(b, TaskModal.ToPatch(f), now);
      forall i :: 0 <= i < |b.tasks| ==>
        && r.tasks[i].id == b.tasks[i].id
        && r.tasks[i].status == b.tasks[i].status
        && r.tasks[i].createdAt == b.tasks[i].createdAt
        && (now >= b.tasks[i].updatedAt ==> r.tasks[i].updatedAt >= b.tasks[i].updatedAt)
        && (b.tasks[i].id == b.editing.value.id ==>
              && r.tasks[i].title == f.title && r.tasks[i].description == f.description
              && r.tasks[i].priority == f.priority && r.tasks[i].assignee == f.assignee
              && r.tasks[i].progress == f.progress && r.tasks[i].updatedAt == now)
  {
  }

  /** Opening the editor on a task and submitting it unchanged only refreshes
      the task's update time. */
  lemma {:induction false} LoadSubmitRoundTrip(t: Task, now: int)
    ensures Merge(t, TaskModal.ToPatch(TaskModal.Load(Some(t))), now) == t.(updatedAt := now)
  {
  }

  /** `handleDeleteTask`: every task with the id goes, the rest stay in order. */
  function DeleteTask(b: Board, id: string): (r: Board)
    ensures forall i :: 0 <= i < |r.tasks| ==> r.tasks[i].id != id && r.tasks[i] in b.tasks
    ensures forall i :: 0 <= i < |b.tasks| && b.tasks[i].id != id ==> b.tasks[i] in r.tasks
    ensures |r.tasks| == |b.tasks| - Count(b.tasks, HasId(id))
    ensures r.columns == b.columns && r.active == b.active && r.editing == b.editing
  {
    CountComplement(b.tasks, HasId(id), LacksId(id));
    CountIsFilterLength(b.tasks, LacksId(id));
    b.(tasks := Filter(b.tasks, LacksId(id)))
  }

  /** Deleting keeps the survivors' relative order: it distributes over concatenation. */
  lemma {:induction false} DeleteKeepsOrder(b: Board, front: seq<Task>, back: seq<Task>, id: string)
    requires b.tasks == front + back
    ensures DeleteTask(b, id).tasks == DeleteTask(b.(tasks := front), id).tasks + DeleteTask(b.(tasks := back), id).tasks
  {
    FilterConcat(front, back, LacksId(id));
  }

  /** Deleting an id no task has leaves the list as it is. */
  lemma {:induction false} DeleteAbsentIsNoop(b: Board, id: string)
    requires forall i :: 0 <= i < |b.tasks| ==> b.tasks[i].id != id
    ensures DeleteTask(b, id) == b
  {
    FilterAll(b.tasks, LacksId(id));
  }

  /** Deleting twice is deleting once, and the id is then not found. */
  lemma {:induction false} DeleteTwiceIsDeleteOnce(b: Board, id: string)
    ensures DeleteTask(DeleteTask(b, id), id) == DeleteTask(b, id)
    ensures FindIndex(DeleteTask(b, id).tasks, id).None?
    ensures DragStart(DeleteTask(b, id), id).active == Idle
  {
    FilterIdempotent(b.tasks, LacksId(id));
  }

  // ---------------------------------------------------------------------------
  // Columns

  /** `handleCreateColumn`: one column is appended whose order is the number of
      columns before it; the existing columns and all tasks are untouched. */
  function CreateColumn(b: Board, draft: ColumnModal.Draft, freshId: string): (r: Board)
    ensures |r.columns| == |b.columns| + 1 && r.columns[..|b.columns|] == b.columns
    ensures r.columns[|b.columns|].order == |b.columns|
    ensures r.columns[|b.columns|].id == freshId
    ensures r.columns[|b.columns|].title == draft.title && r.columns[|b.columns|].color == draft.color
    ensures r.tasks == b.tasks && r.active == b.active && r.editing == b.editing
  {
    b.(columns := b.columns + [Column(freshId, draft.title, draft.color, |b.columns|)])
  }

  function ColumnOrder(c: Column): int {
    c.order
  }

  /** The board's left-to-right column order: a stable sort by `order`. */
  function DisplayColumns(columns: seq<Column>): (r: seq<Column>)
    ensures multiset(r) == multiset(columns)
    ensures forall i, j :: 0 <= i < j < |r| ==> r[i].order <= r[j].order
  {
    var r := SortBy(columns, ColumnOrder);
    assert SortedBy(r, ColumnOrder);
    r
  }

  /** Every column's order is below the number of columns: true of the seed,
      and kept by `CreateColumn`. */
  predicate OrdersBelowCount(columns: seq<Column>) {
    forall i :: 0 <= i < |columns| ==> columns[i].order < |columns|
  }

  /** A new column is displayed after all the existing ones, which keep their display order. */
  lemma {:induction false} NewColumnDisplayedLast(b: Board, draft: ColumnModal.Draft, freshId: string)
    requires OrdersBelowCount(b.columns)
    ensures var r := CreateColumn(b, draft, freshId);
      && OrdersBelowCount(r.columns)
      && DisplayColumns(r.columns) == DisplayColumns(b.columns) + [r.columns[|b.columns|]]
  {
    var r := CreateColumn(b, draft, freshId);
    SortAppendGreatest(b.columns, r.columns[|b.columns|], ColumnOrder);
  }

  /** Columns listed in increasing order are displayed as listed. */
  lemma {:induction false} ListedInOrderDisplayedAsListed(columns: seq<Column>)
    requires forall i, j :: 0 <= i < j < |columns| ==> columns[i].order <= columns[j].order
    ensures DisplayColumns(columns) == columns
  {
    assert SortedBy(columns, ColumnOrder);
    SortSortedIsIdentity(columns, ColumnOrder);
  }

  /** The seed columns are displayed in the order they are listed. */
  lemma {:induction false} InitialColumnsDisplayInOrder()
    ensures OrdersBelowCount(InitialColumns)
    ensures DisplayColumns(InitialColumns) == InitialColumns
  {
    var cs := InitialColumns;
    assert cs[0].order == 0 && cs[1].order == 1 && cs[2].order == 2;
    ListedInOrderDisplayedAsListed(cs);
  }

  // ---------------------------------------------------------------------------
  // The forms wired to the board

  /** Submitting the task form: blank titles change nothing; otherwise the form
      updates the task being edited or creates a new one, then the modal's close
      handler ends any edit. */
  function SubmitTaskForm(b: Board, f: TaskModal.Form, freshId: string, now: int): (r: Board)
    ensures Text.IsBlank(f.title) ==> r == b
    ensures !Text.IsBlank(f.title) ==> r.editing.None? && r.columns == b.columns
    ensures !Text.IsBlank(f.title) && b.editing.None? ==>
      && |r.tasks| == |b.tasks| + 1 && r.tasks[..|b.tasks|] == b.tasks
      && r.tasks[|b.tasks|].title == f.title && r.tasks[|b.tasks|].priority == f.priority
      && r.tasks[|b.tasks|].assignee == f.assignee && r.tasks[|b.tasks|].progress == 0
      && r.tasks[|b.tasks|].description == f.description
      && r.tasks[|b.tasks|].id == freshId && r.tasks[|b.tasks|].status == Todo
      && r.tasks[|b.tasks|].createdAt == now && r.tasks[|b.tasks|].updatedAt == now
    ensures !Text.IsBlank(f.title) && b.editing.None? ==>
      r == CreateTask(b, TaskModal.ToPatch(f), freshId, now)
    ensures !Text.IsBlank(f.title) && b.editing.Some? ==>
      r == UpdateTask(b, TaskModal.ToPatch(f), now)
  {
    var outcome := TaskModal.Submit(f);
    if outcome.emitted.None? then b
    else if b.editing.Some? then UpdateTask(b, TaskModal.ToPatch(f), now)
    else CreateTask(b, TaskModal.ToPatch(f), freshId, now).(editing := None)
  }

  /** `handleEditTask`: the task becomes the one the form edits; the board's
      tasks, columns and drag slot are untouched. */
  function EditTask(b: Board, t: Task): (r: Board)
    ensures r.editing == Some(t)
    ensures r.tasks == b.tasks && r.columns == b.columns && r.active == b.active
  {
    b.(editing := Some(t))
  }

  /** The task modal's close handler, run on cancel as well as after a submit:
      the edit ends and nothing else changes. */
  function CloseTaskModal(b: Board): (r: Board)
    ensures r.editing.None?
    ensures r.tasks == b.tasks && r.columns == b.columns && r.active == b.active
  {
    b.(editing := None)
  }

  /** Opening the editor on a task and cancelling leaves the board as it was. */
  lemma {:induction false} EditThenCancelIsNoop(b: Board, t: Task)
    requires b.editing.None?
    ensures CloseTaskModal(EditTask(b, t)) == b
  {
  }

  /** Opening the editor on a task and submitting its loaded form unchanged
      refreshes the update time of the tasks with that id, touches no other
      task and ends the edit. */
  lemma {:induction false} EditSubmitUnchanged(b: Board, t: Task, freshId: string, now: int)
    requires !Text.IsBlank(t.title)
    ensures var r := SubmitTaskForm(EditTask(b, t), TaskModal.Load(Some(t)), freshId, now);
      && r.editing.None? && |r.tasks| == |b.tasks|
      && (forall i :: 0 <= i < |b.tasks| && b.tasks[i] == t ==> r.tasks[i] == t.(updatedAt := now))
      && (forall i :: 0 <= i < |b.tasks| && b.tasks[i].id != t.id ==> r.tasks[i] == b.tasks[i])
  {
  }

  /** Submitting the column form: a blank title changes neither the board nor
      the form; otherwise a column is appended and the form is reset. */
  function SubmitColumnForm(b: Board, s: ColumnModal.State, freshId: string): (r: (Board, ColumnModal.State))
    ensures Text.IsBlank(s.title) ==> r == (b, s)
    ensures !Text.IsBlank(s.title) ==>
      && r.0 == CreateColumn(b, ColumnModal.Draft(s.title, s.selectedColor), freshId)
      && r.1 == ColumnModal.Initial
  {
    var sub := ColumnModal.Submit(s);
    match sub.emitted
    case None => (b, sub.state)
    case Some(draft) => (CreateColumn(b, draft, freshId), sub.state)
  }

  // ---------------------------------------------------------------------------
  // Scenarios

  /** The seeded column ids are exactly the three seeded statuses. */
  lemma {:induction false} SeedColumnIds(id: string)
    ensures IsColumnId(InitialColumns, id) <==> id == Todo || id == InProgress || id == Done
  {
    var cs := InitialColumns;
    assert cs[0].id == Todo && cs[1].id == InProgress && cs[2].id == Done;
  }

  /** On the seeded columns, a drop anywhere but a seeded status leaves the tasks as they were. */
  lemma {:induction false} SeedColumnDropTargets(b: Board, activeId: string, target: string, now: int)
    requires b.columns == InitialColumns
    requires target != Todo && target != InProgress && target != Done
    ensures DragEnd(b, activeId, Some(target), now).tasks == b.tasks
  {
    SeedColumnIds(target);
  }

  /** A "Backlog" column created on the seeded columns gets order 3 and is displayed last. */
  lemma {:induction false} BacklogColumnScenario(b: Board, color: string, freshId: string)
    requires b.columns == InitialColumns
    ensures var r := CreateColumn(b, ColumnModal.Draft("Backlog", color), freshId);
      && r.columns[3].order == 3
      && DisplayColumns(r.columns) == InitialColumns + [r.columns[3]]
  {
    InitialColumnsDisplayInOrder();
    NewColumnDisplayedLast(b, ColumnModal.Draft("Backlog", color), freshId);
  }
}

=== FILE: reports.dfy ===
/** The reports page (`components/reports-page.tsx`): counts by status and by
    priority, the completion rate and the average progress, all computed from
    the current task list alone. */
module Reports {
  import opened Seqs
  import opened TaskTypes
  import JsMath
  import Kanban

  /** `Math.round(100 * done / total)`, or 0 for an empty list. */
  function CompletionRate(tasks: seq<Task>): (r: int)
    ensures 0 <= r <= 100
    ensures |tasks| == 0 ==> r == 0
    ensures |tasks| > 0 ==>
      2 * |tasks| * r - |tasks| <= 200 * Count(tasks, HasStatus(Done)) < 2 * |tasks| * r + |tasks|
    ensures |tasks| > 0 && (forall i :: 0 <= i < |tasks| ==> tasks[i].status == Done) ==> r == 100
    ensures (forall i :: 0 <= i < |tasks| ==> tasks[i].status != Done) ==> r == 0
  {
    CountZero(tasks, HasStatus(Done));
    CountFull(tasks, HasStatus(Done));
    if |tasks| > 0 then JsMath.Percent(Count(tasks, HasStatus(Done)), |tasks|) else 0
  }

  /** A task in a column other than the three seeded ones. */
  const HasCustomStatus: Task -> bool :=
    (t: Task) => t.status != Todo && t.status != InProgress && t.status != Done

  lemma {:induction false} StatusCountsPartition(tasks: seq<Task>)
    ensures Count(tasks, HasStatus(Todo)) + Count(tasks, HasStatus(InProgress))
          + Count(tasks, HasStatus(Done)) + Count(tasks, HasCustomStatus) == |tasks|
  {
    if |tasks| > 0 {
      CountCons(tasks, HasStatus(Todo));
      CountCons(tasks, HasStatus(InProgress));
      CountCons(tasks, HasStatus(Done));
      CountCons(tasks, HasCustomStatus);
      StatusCountsPartition(tasks[1..]);
    }
  }

  /** The three named status counts never exceed the total, and fall short of
      it exactly when some task sits in a column of another name. */
  lemma {:induction false} StatusCountsBounded(tasks: seq<Task>)
    ensures Count(tasks, HasStatus(Todo)) + Count(tasks, HasStatus(InProgress))
          + Count(tasks, HasStatus(Done)) <= |tasks|
    ensures (exists i :: 0 <= i < |tasks| && tasks[i].status != Todo
                && tasks[i].status != InProgress && tasks[i].status != Done) <==>
      Count(tasks, HasStatus(Todo)) + Count(tasks, HasStatus(InProgress))
        + Count(tasks, HasStatus(Done)) < |tasks|
  {
    StatusCountsPartition(tasks);
    CountZero(tasks, HasCustomStatus);
  }

  /** Priority is a closed three-valued type, so the three counts add up to the total. */
  lemma {:induction false} PriorityCountsPartition(tasks: seq<Task>)
    ensures Count(tasks, HasPriority(High)) + Count(tasks, HasPriority(Medium))
          + Count(tasks, HasPriority(Low)) == |tasks|
  {
    if |tasks| > 0 {
      CountCons(tasks, HasPriority(High));
      CountCons(tasks, HasPriority(Medium));
      CountCons(tasks, HasPriority(Low));
      PriorityCountsPartition(tasks[1..]);
    }
  }

  /** `tasks.reduce((sum, task) => sum + task.progress, 0)`. */
  function SumProgress(tasks: seq<Task>): int {
    if |tasks| == 0 then 0 else SumProgress(tasks[..|tasks| - 1]) + tasks[|tasks| - 1].progress
  }

  /** The sum adds up over concatenation and a single task contributes its
      progress: with the empty sum 0 this pins `SumProgress` down as the fold. */
  lemma {:induction false} SumProgressConcat(a: seq<Task>, b: seq<Task>, t: Task)
    ensures SumProgress(a + b) == SumProgress(a) + SumProgress(b)
    ensures SumProgress([t]) == t.progress
    decreases |b|
  {
    if |b| == 0 {
      assert a + b == a;
    } else {
      SumProgressConcat(a, b[..|b| - 1], t);
      assert (a + b)[..|a + b| - 1] == a + b[..|b| - 1];
    }
    assert [t][..0] == [];
  }

  lemma {:induction false} SumProgressBetween(tasks: seq<Task>, lo: int, hi: int)
    requires forall i :: 0 <= i < |tasks| ==> lo <= tasks[i].progress <= hi
    ensures lo * |tasks| <= SumProgress(tasks) <= hi * |tasks|
  {
    if |tasks| > 0 {
      SumProgressBetween(tasks[..|tasks| - 1], lo, hi);
      assert lo * |tasks| == lo * (|tasks| - 1) + lo;
      assert hi * |tasks| == hi * (|tasks| - 1) + hi;
    }
  }

  /** The rounded mean progress, or 0 for an empty list. */
  function AverageProgress(tasks: seq<Task>): (r: int)
    ensures |tasks| == 0 ==> r == 0
    ensures |tasks| > 0 ==>
      2 * |tasks| * r - |tasks| <= 2 * SumProgress(tasks) < 2 * |tasks| * r + |tasks|
  {
    if |tasks| > 0 then JsMath.RoundDiv(SumProgress(tasks), |tasks|) else 0
  }

  /** The average lies between any bounds of the individual progress values;
      in particular it is a percentage when every progress is. */
  lemma {:induction false} AverageProgressBetween(tasks: seq<Task>, lo: int, hi: int)
    requires |tasks| > 0
    requires forall i :: 0 <= i < |tasks| ==> lo <= tasks[i].progress <= hi
    ensures lo <= AverageProgress(tasks) <= hi
  {
    SumProgressBetween(tasks, lo, hi);
    JsMath.RoundDivBetween(SumProgress(tasks), |tasks|, lo, hi);
  }

  /** The width of a share bar: `total > 0 ? (count / total) * 100 : 0`, on exact reals. */
  function ShareBar(count: nat, total: nat): (w: real)
    requires count <= total
    ensures total == 0 ==> w == 0.0
    ensures 0.0 <= w <= 100.0
    ensures total > 0 ==> w * total as real == count as real * 100.0
  {
    if total > 0 then (count as real / total as real) * 100.0 else 0.0
  }

  lemma {:induction false} SharesAddUp(a: nat, b: nat, c: nat, n: nat)
    requires n > 0 && a + b + c == n
    ensures ShareBar(a, n) + ShareBar(b, n) + ShareBar(c, n) == 100.0
  {
    var k := 100.0 / n as real;
    assert ShareBar(a, n) == a as real * k;
    assert ShareBar(b, n) == b as real * k;
    assert ShareBar(c, n) == c as real * k;
    assert (a as real + b as real + c as real) * k == n as real * k;
  }

  /** The priority breakdown bars: one per priority, each a share of the total. */
  function PriorityBars(tasks: seq<Task>): (r: (real, real, real))
    ensures |tasks| == 0 ==> r == (0.0, 0.0, 0.0)
    ensures 0.0 <= r.0 <= 100.0 && 0.0 <= r.1 <= 100.0 && 0.0 <= r.2 <= 100.0
    ensures |tasks| > 0 ==> (r.0 + r.1 + r.2) == 100.0
  {
    PriorityCountsPartition(tasks);
    var n := |tasks|;
    var high := Count(tasks, HasPriority(High));
    var medium := Count(tasks, HasPriority(Medium));
    var low := Count(tasks, HasPriority(Low));
    var r := (ShareBar(high, n), ShareBar(medium, n), ShareBar(low, n));
    assert n > 0 ==> (r.0 + r.1 + r.2) == 100.0 by {
      if n > 0 {
        SharesAddUp(high, medium, low, n);
      }
    }
    r
  }

  /** The counts and the progress sum of a three-task list, element by element. */
  lemma {:induction false} ThreeTasks(tasks: seq<Task>, p: Task -> bool)
    requires |tasks| == 3
    ensures Count(tasks, p) == (if p(tasks[0]) then 1 else 0) + (if p(tasks[1]) then 1 else 0)
                              + (if p(tasks[2]) then 1 else 0)
    ensures SumProgress(tasks) == tasks[0].progress + tasks[1].progress + tasks[2].progress
  {
    CountCons(tasks, p);
    CountCons(tasks[1..], p);
    CountCons(tasks[2..], p);
    assert tasks[2..][1..] == [];
    assert SumProgress(tasks[..1]) == tasks[0].progress by {
      assert tasks[..1][..0] == [];
    }
    assert SumProgress(tasks[..2]) == tasks[0].progress + tasks[1].progress by {
      assert tasks[..2][..1] == tasks[..1];
    }
    assert tasks[..2] == tasks[..|tasks| - 1];
  }

  /** A three-task list with one task done and progress 0, 75 and 100 has a
      completion rate of 33 and an average progress of 58. */
  lemma {:induction false} SeedShapeStatistics(tasks: seq<Task>)
    requires |tasks| == 3
    requires tasks[0].status == Todo && tasks[1].status == InProgress && tasks[2].status == Done
    requires tasks[0].progress == 0 && tasks[1].progress == 75 && tasks[2].progress == 100
    ensures CompletionRate(tasks) == 33 && AverageProgress(tasks) == 58
  {
    ThreeTasks(tasks, HasStatus(Done));
  }

  /** On the three seed tasks the page shows a completion rate of 33 and an
      average progress of 58. */
  lemma {:induction false} SeedStatistics(now: int)
    ensures CompletionRate(Kanban.Initial(now).tasks) == 33
    ensures AverageProgress(Kanban.Initial(now).tasks) == 58
  {
    SeedShapeStatistics(Kanban.Initial(now).tasks);
  }
}

=== FILE: seqs.dfy ===
/** The array combinators the board and its views are built from:
    `filter`, `filter(...).length` and a `map` that rewrites only the
    elements a predicate selects. */
module Seqs {

  /** The elements of `s` that satisfy `p`, in their original order. */
  function Filter<T>(s: seq<T>, p: T -> bool): (r: seq<T>)
    ensures |r| <= |s|
    ensures forall i :: 0 <= i < |r| ==> r[i] in s && p(r[i])
    ensures forall i :: 0 <= i < |s| && p(s[i]) ==> s[i] in r
  {
    if |s| == 0 then []
    else (if p(s[0]) then [s[0]] else []) + Filter(s[1..], p)
  }

  /** How many elements of `s` satisfy `p`; the same number as
      `s.filter(p).length`, as `CountIsFilterLength` shows. */
  function Count<T>(s: seq<T>, p: T -> bool): (n: nat)
    ensures n <= |s|
  {
    if |s| == 0 then 0 else (if p(s[0]) then 1 else 0) + Count(s[1..], p)
  }

  lemma {:induction false} CountIsFilterLength<T>(s: seq<T>, p: T -> bool)
    ensures Count(s, p) == |Filter(s, p)|
  {
    if |s| > 0 {
      CountIsFilterLength(s[1..], p);
    }
  }

  /** No element is counted exactly when none satisfies the predicate. */
  lemma {:induction false} CountZero<T>(s: seq<T>, p: T -> bool)
    ensures Count(s, p) == 0 <==> forall i :: 0 <= i < |s| ==> !p(s[i])
  {
    if |s| > 0 {
      CountZero(s[1..], p);
      assert forall i :: 1 <= i < |s| ==> s[i] == s[1..][i - 1];
    }
  }

  /** Every element is counted exactly when all satisfy the predicate. */
  lemma {:induction false} CountFull<T>(s: seq<T>, p: T -> bool)
    ensures Count(s, p) == |s| <==> forall i :: 0 <= i < |s| ==> p(s[i])
  {
    if |s| > 0 {
      CountFull(s[1..], p);
      assert forall i :: 1 <= i < |s| ==> s[i] == s[1..][i - 1];
    }
  }

  /** `s.map(x => p(x) ? f(x) : x)`: every selected element is rewritten, the others kept. */
  function MapWhere<T>(s: seq<T>, p: T -> bool, f: T -> T): (r: seq<T>)
    ensures |r| == |s|
    ensures forall i :: 0 <= i < |s| ==> r[i] == if p(s[i]) then f(s[i]) else s[i]
  {
    if |s| == 0 then []
    else [if p(s[0]) then f(s[0]) else s[0]] + MapWhere(s[1..], p, f)
  }

  /** Filtering distributes over concatenation; with the singleton case this
      pins `Filter` down as the order-preserving selection. */
  lemma {:induction false} FilterConcat<T>(a: seq<T>, b: seq<T>, p: T -> bool)
    ensures Filter(a + b, p) == Filter(a, p) + Filter(b, p)
  {
    if |a| == 0 {
      assert a + b == b;
    } else {
      assert (a + b)[0] == a[0];
      assert (a + b)[1..] == a[1..] + b;
      FilterConcat(a[1..], b, p);
    }
  }

  lemma {:induction false} CountConcat<T>(a: seq<T>, b: seq<T>, p: T -> bool)
    ensures Count(a + b, p) == Count(a, p) + Count(b, p)
  {
    if |a| == 0 {
      assert a + b == b;
    } else {
      assert (a + b)[1..] == a[1..] + b;
      CountConcat(a[1..], b, p);
    }
  }

  /** Counting the last element separately. */
  lemma {:induction false} CountSnoc<T>(s: seq<T>, p: T -> bool)
    requires |s| > 0
    ensures Count(s, p) == Count(s[..|s| - 1], p) + (if p(s[|s| - 1]) then 1 else 0)
  {
    assert s == s[..|s| - 1] + [s[|s| - 1]];
    CountConcat(s[..|s| - 1], [s[|s| - 1]], p);
  }

  /** Counting the first element separately. */
  lemma {:induction false} CountCons<T>(s: seq<T>, p: T -> bool)
    requires |s| > 0
    ensures Count(s, p) == (if p(s[0]) then 1 else 0) + Count(s[1..], p)
  {
  }

  /** A predicate implied pointwise by another selects at least as many elements. */
  lemma {:induction false} CountMonotone<T>(s: seq<T>, p: T -> bool, q: T -> bool)
    requires forall i :: 0 <= i < |s| ==> p(s[i]) ==> q(s[i])
    ensures Count(s, p) <= Count(s, q)
  {
    if |s| > 0 {
      CountCons(s, p);
      CountCons(s, q);
      CountMonotone(s[1..], p, q);
    }
  }

  /** Filtering twice by the same predicate is filtering once. */
  lemma {:induction false} FilterIdempotent<T>(s: seq<T>, p: T -> bool)
    ensures Filter(Filter(s, p), p) == Filter(s, p)
  {
    if |s| > 0 {
      FilterIdempotent(s[1..], p);
      FilterConcat(if p(s[0]) then [s[0]] else [], Filter(s[1..], p), p);
    }
  }

  /** Filtering by a predicate every element satisfies changes nothing. */
  lemma {:induction false} FilterAll<T>(s: seq<T>, p: T -> bool)
    requires forall i :: 0 <= i < |s| ==> p(s[i])
    ensures Filter(s, p) == s
  {
    if |s| > 0 {
      FilterAll(s[1..], p);
    }
  }

  /** A predicate and its negation split the sequence between them. */
  lemma {:induction false} CountComplement<T>(s: seq<T>, p: T -> bool, q: T -> bool)
    requires forall i :: 0 <= i < |s| ==> q(s[i]) == !p(s[i])
    ensures Count(s, p) + Count(s, q) == |s|
  {
    if |s| > 0 {
      CountCons(s, p);
      CountCons(s, q);
      CountComplement(s[1..], p, q);
    }
  }
}

=== FILE: sorting.dfy ===
/** `Array.prototype.sort` with a numeric comparator `(a, b) => key(a) - key(b)`.
    The sort is stable (ECMAScript 2019 requires it), so it is modelled as an
    insertion sort that puts a later element after every earlier one with an
    equal key. A descending comparator `b.k - a.k` is the ascending sort on `-k`. */
module Sorting {
  import opened Seqs

  ghost predicate SortedBy<T>(s: seq<T>, key: T -> int) {
    forall i, j :: 0 <= i < j < |s| ==> key(s[i]) <= key(s[j])
  }

  /** Selects the elements whose key is `k`. */
  function KeyIs<T>(key: T -> int, k: int): T -> bool {
    x => key(x) == k
  }

  /** Inserts `x` behind every element of `l` whose key is at most `key(x)`. */
  function Insert<T>(l: seq<T>, x: T, key: T -> int): (r: seq<T>)
    ensures |r| == |l| + 1
    ensures multiset(r) == multiset(l) + multiset{x}
    decreases |l|
  {
    if |l| == 0 || key(l[|l| - 1]) <= key(x) then l + [x]
    else
      assert l == l[..|l| - 1] + [l[|l| - 1]];
      Insert(l[..|l| - 1], x, key) + [l[|l| - 1]]
  }

  /** `x` goes last when no element has a greater key than it. */
  lemma {:induction false} InsertAtEnd<T>(l: seq<T>, x: T, key: T -> int)
    requires |l| == 0 || key(l[|l| - 1]) <= key(x)
    ensures Insert(l, x, key) == l + [x]
  {
  }

  /** One step of the insertion: `x` goes in front of a last element with a greater key. */
  lemma {:induction false} InsertBeforeGreater<T>(l: seq<T>, x: T, key: T -> int)
    requires |l| > 0 && key(l[|l| - 1]) > key(x)
    ensures Insert(l, x, key) == Insert(l[..|l| - 1], x, key) + [l[|l| - 1]]
  {
  }

  /** Inserting into a sorted sequence keeps it sorted. */
  lemma {:induction false} InsertKeepsSorted<T>(l: seq<T>, x: T, key: T -> int)
    requires SortedBy(l, key)
    ensures SortedBy(Insert(l, x, key), key)
    decreases |l|
  {
    if |l| == 0 || key(l[|l| - 1]) <= key(x) {
      var r := l + [x];
      forall i, j | 0 <= i < j < |r|
        ensures key(r[i]) <= key(r[j])
      {
        if j == |l| {
          assert key(r[i]) <= key(l[|l| - 1]);
        }
      }
    } else {
      var init := l[..|l| - 1];
      var last := l[|l| - 1];
      InsertBeforeGreater(l, x, key);
      assert SortedBy(init, key);
      InsertKeepsSorted(init, x, key);
      var front := Insert(init, x, key);
      forall i | 0 <= i < |front|
        ensures key(front[i]) <= key(last)
      {
        assert front[i] in multiset(init) + multiset{x} by {
          assert front[i] in multiset(front);
        }
        if front[i] != x {
          assert front[i] in init;
        }
      }
    }
  }

  /** The stable ascending sort of `s` by `key`. */
  function SortBy<T>(s: seq<T>, key: T -> int): (r: seq<T>)
    ensures |r| == |s|
    ensures multiset(r) == multiset(s)
    ensures SortedBy(r, key)
  {
    if |s| == 0 then []
    else
      assert s == s[..|s| - 1] + [s[|s| - 1]];
      var sorted := SortBy(s[..|s| - 1], key);
      assert SortedBy(Insert(sorted, s[|s| - 1], key), key) by {
        InsertKeepsSorted(sorted, s[|s| - 1], key);
      }
      Insert(sorted, s[|s| - 1], key)
  }

  /** Appending an element whose key is not below any other puts it last. */
  lemma {:induction false} SortAppendGreatest<T>(s: seq<T>, x: T, key: T -> int)
    requires forall i :: 0 <= i < |s| ==> key(s[i]) <= key(x)
    ensures SortBy(s + [x], key) == SortBy(s, key) + [x]
  {
    var t := s + [x];
    assert t[..|t| - 1] == s;
    var sorted := SortBy(s, key);
    if |sorted| > 0 {
      assert sorted[|sorted| - 1] in multiset(s);
    }
  }

  /** A sequence that is already in order is left as it is. */
  lemma {:induction false} SortSortedIsIdentity<T>(s: seq<T>, key: T -> int)
    requires SortedBy(s, key)
    ensures SortBy(s, key) == s
  {
    if |s| > 0 {
      var init := s[..|s| - 1];
      var last := s[|s| - 1];
      assert init + [last] == s;
      assert SortedBy(init, key);
      SortSortedIsIdentity(init, key);
      assert SortBy(s, key) == Insert(init, last, key);
      if |init| > 0 {
        assert key(init[|init| - 1]) <= key(last);
      }
      InsertAtEnd(init, last, key);
    }
  }

  lemma {:induction false} InsertCount<T>(l: seq<T>, x: T, key: T -> int, p: T -> bool)
    ensures Count(Insert(l, x, key), p) == Count(l, p) + Count([x], p)
    decreases |l|
  {
    if |l| == 0 || key(l[|l| - 1]) <= key(x) {
      CountConcat(l, [x], p);
    } else {
      var init := l[..|l| - 1];
      var last := l[|l| - 1];
      InsertBeforeGreater(l, x, key);
      InsertCount(init, x, key, p);
      CountConcat(Insert(init, x, key), [last], p);
      assert init + [last] == l;
      CountConcat(init, [last], p);
    }
  }

  /** Sorting neither adds nor drops elements of any kind. */
  lemma {:induction false} SortCount<T>(s: seq<T>, key: T -> int, p: T -> bool)
    ensures Count(SortBy(s, key), p) == Count(s, p)
  {
    if |s| > 0 {
      var init := s[..|s| - 1];
      SortCount(init, key, p);
      InsertCount(SortBy(init, key), s[|s| - 1], key, p);
      CountSnoc(s, p);
    }
  }

  /** Two elements with different keys never both carry key `k`. */
  lemma {:induction false} DistinctKeysCommute<T>(x: T, y: T, key: T -> int, k: int)
    requires key(x) != key(y)
    ensures Filter([x], KeyIs(key, k)) + Filter([y], KeyIs(key, k))
         == Filter([y], KeyIs(key, k)) + Filter([x], KeyIs(key, k))
  {
    var fx := Filter([x], KeyIs(key, k));
    var fy := Filter([y], KeyIs(key, k));
    assert fx == [] || fy == [];
  }

  lemma SwapTail<T>(a: seq<T>, b: seq<T>, c: seq<T>)
    requires b + c == c + b
    ensures a + b + c == a + c + b
  {
    assert a + b + c == a + (b + c);
    assert a + c + b == a + (c + b);
  }

  lemma {:induction false} InsertStable<T>(l: seq<T>, x: T, key: T -> int, k: int)
    ensures Filter(Insert(l, x, key), KeyIs(key, k))
         == Filter(l, KeyIs(key, k)) + Filter([x], KeyIs(key, k))
    decreases |l|
  {
    var p := KeyIs(key, k);
    if |l| == 0 || key(l[|l| - 1]) <= key(x) {
      FilterConcat(l, [x], p);
    } else {
      var init := l[..|l| - 1];
      var last := l[|l| - 1];
      InsertBeforeGreater(l, x, key);
      InsertStable(init, x, key, k);
      FilterConcat(Insert(init, x, key), [last], p);
      assert init + [last] == l;
      FilterConcat(init, [last], p);
      DistinctKeysCommute(x, last, key, k);
      SwapTail(Filter(init, p), Filter([x], p), Filter([last], p));
    }
  }

  /** Stability: the elements sharing any one key keep their original relative order. */
  lemma {:induction false} SortStable<T>(s: seq<T>, key: T -> int, k: int)
    ensures Filter(SortBy(s, key), KeyIs(key, k)) == Filter(s, KeyIs(key, k))
  {
    if |s| > 0 {
      var init, last := s[..|s| - 1], s[|s| - 1];
      var p := KeyIs(key, k);
      assert s == init + [last];
      assert SortBy(s, key) == Insert(SortBy(init, key), last, key);
      SortStable(init, key, k);
      InsertStable(SortBy(init, key), last, key, k);
      FilterConcat(init, [last], p);
    }
  }
}

=== FILE: task_modal.dfy ===
/** The task editor (`components/task-modal.tsx`): a five-field form that is
    loaded from the task being edited or reset to defaults when the modal
    opens, and a submit guard that refuses a blank title. */
module TaskModal {
  import opened Wrappers
  import opened TaskTypes
  import Text

  datatype Form = Form(
    title: string,
    description: string,
    priority: Priority,
    assignee: Person,
    progress: int)

  /** The fixed list the assignee selector offers. */
  const Assignees: seq<Person> := [Alice, Bob, Carol, David, Eve]

  /** The form's contents when the modal opens without a task. */
  const Blank: Form := Form("", "", Medium, Assignees[0], 0)

  /** The effect run whenever the modal opens or its task changes. */
  function Load(task: Option<Task>): (f: Form)
    ensures task.Some? ==>
      && f.title == task.value.title
      && f.description == task.value.description
      && f.priority == task.value.priority
      && f.assignee == task.value.assignee
      && f.progress == task.value.progress
    ensures task.None? ==>
      f.title == "" && f.description == "" && f.priority == Medium
      && f.assignee == Assignees[0] && f.progress == 0
  {
    match task
    case Some(t) => Form(t.title, t.description, t.priority, t.assignee, t.progress)
    case None => Blank
  }

  /** The first person in `people` with the given name. */
  function FindByName(people: seq<Person>, name: string): (r: Option<Person>)
    ensures r.Some? ==> r.value in people && r.value.name == name
    ensures r.Some? ==> exists i ::
      && 0 <= i < |people| && people[i] == r.value
      && forall j :: 0 <= j < i ==> people[j].name != name
    ensures r.None? ==> forall i :: 0 <= i < |people| ==> people[i].name != name
  {
    if |people| == 0 then None
    else if people[0].name == name then Some(people[0])
    else FindByName(people[1..], name)
  }

  /** Choosing an assignee by name; a name the list does not hold selects the first assignee. */
  function SelectAssignee(f: Form, name: string): (r: Form)
    ensures r.assignee in Assignees
    ensures (exists i :: 0 <= i < |Assignees| && Assignees[i].name == name) ==> r.assignee.name == name
    ensures (forall i :: 0 <= i < |Assignees| ==> Assignees[i].name != name) ==> r.assignee == Assignees[0]
    ensures r.title == f.title && r.description == f.description
    ensures r.priority == f.priority && r.progress == f.progress
  {
    f.(assignee := FindByName(Assignees, name).GetOr(Assignees[0]))
  }

  /** What a submit does: the form handed to `onSubmit`, if any, and whether `onClose` ran. */
  datatype Outcome = Outcome(emitted: Option<Form>, closed: bool)

  /** The submit handler: a title that is empty once trimmed stops everything;
      otherwise the whole form, title untrimmed, is emitted and the modal closes. */
  function Submit(f: Form): (o: Outcome)
    ensures Text.IsBlank(f.title) ==> o.emitted.None? && !o.closed
    ensures !Text.IsBlank(f.title) ==> o.emitted == Some(f) && o.closed
  {
    if Text.IsBlank(f.title) then Outcome(None, false) else Outcome(Some(f), true)
  }

  /** The `Partial<Task>` an emitted form stands for: its five fields and nothing else. */
  function ToPatch(f: Form): (p: TaskPatch)
    ensures p.title == Some(f.title) && p.description == Some(f.description)
    ensures p.priority == Some(f.priority) && p.assignee == Some(f.assignee)
    ensures p.progress == Some(f.progress)
    ensures p.id.None? && p.status.None? && p.createdAt.None? && p.updatedAt.None?
  {
    TaskPatch(None, Some(f.title), Some(f.description), None, Some(f.priority),
              Some(f.assignee), Some(f.progress), None, None)
  }

  /** A title of spaces alone never reaches `onSubmit`. */
  lemma {:induction false} WhitespaceTitleRejected(f: Form)
    requires forall i :: 0 <= i < |f.title| ==> Text.IsWhitespace(f.title[i])
    ensures Submit(f).emitted.None? && !Submit(f).closed
  {
  }
}

=== FILE: task_types.dfy ===
/** The records of `types/task.ts`: tasks, columns, and the partial task a form
    submits. Timestamps (`Date`) are integers counting milliseconds. */
module TaskTypes {
  import opened Wrappers

  /** A column id. The source's union `"todo" | "in-progress" | "done" | string`
      admits any string, so a status is any string; the three seeded ones are named. */
  type Status = string

  const Todo: Status := "todo"
  const InProgress: Status := "in-progress"
  const Done: Status := "done"

  datatype Priority = Low | Medium | High

  /** The spelling of a priority inside template literals. */
  function PriorityName(p: Priority): string {
    match p
    case Low => "low"
    case Medium => "medium"
    case High => "high"
  }

  /** A person shown on a card or in the log: a name and an avatar URL. */
  datatype Person = Person(name: string, avatar: string)

  /** The generated avatar picture for a seed word. */
  function Avatar(seed: string): string {
    "https://api.dicebear.com/7.x/avataaars/svg?seed=" + seed
  }

  /** The people the app knows by name; the same five appear in every list of them. */
  const Alice: Person := Person("Alice Johnson", Avatar("alice"))
  const Bob: Person := Person("Bob Smith", Avatar("bob"))
  const Carol: Person := Person("Carol Davis", Avatar("carol"))
  const David: Person := Person("David Wilson", Avatar("david"))
  const Eve: Person := Person("Eve Brown", Avatar("eve"))

  datatype Task = Task(
    id: string,
    title: string,
    description: string,
    status: Status,
    priority: Priority,
    assignee: Person,
    progress: int,
    createdAt: int,
    updatedAt: int)

  /** A board column; the presentation-only `gradient` class string is not part of the model. */
  datatype Column = Column(id: string, title: string, color: string, order: int)

  /** `Partial<Task>`: every field may be absent. */
  datatype TaskPatch = TaskPatch(
    id: Option<string>,
    title: Option<string>,
    description: Option<string>,
    status: Option<Status>,
    priority: Option<Priority>,
    assignee: Option<Person>,
    progress: Option<int>,
    createdAt: Option<int>,
    updatedAt: Option<int>)

  function HasStatus(s: Status): Task -> bool {
    (t: Task) => t.status == s
  }

  function HasId(id: string): Task -> bool {
    (t: Task) => t.id == id
  }

  function LacksId(id: string): Task -> bool {
    (t: Task) => t.id != id
  }

  function HasPriority(p: Priority): Task -> bool {
    (t: Task) => t.priority == p
  }
}

=== FILE: text.dfy ===
/** The string operations the forms and the activity log rely on:
    ECMAScript `String.prototype.trim` (which strips WhiteSpace and
    LineTerminator code points from both ends) and the decimal rendering of a
    non-negative integer inside a template literal. */
module Text {

  /** The WhiteSpace and LineTerminator code points of ECMAScript (section 12.2
      and 12.3 of ECMA-262): tab, line tabulation, form feed, space, no-break
      space, byte order mark, the other Unicode space separators, and the four
      line terminators. */
  predicate IsWhitespace(c: char) {
    || c == '\t' || c == '\n' || c == '\U{000B}' || c == '\U{000C}' || c == '\r'
    || c == ' ' || c == '\U{00A0}' || c == '\U{1680}'
    || ('\U{2000}' <= c <= '\U{200A}')
    || c == '\U{2028}' || c == '\U{2029}' || c == '\U{202F}' || c == '\U{205F}'
    || c == '\U{3000}' || c == '\U{FEFF}'
  }

  /** `s` without its leading white space: a suffix of `s` that starts with a
      non-white character (or is empty), and everything cut off is white. */
  function TrimStart(s: string): (r: string)
    ensures |r| <= |s| && r == s[|s| - |r|..]
    ensures |r| > 0 ==> !IsWhitespace(r[0])
    ensures forall i :: 0 <= i < |s| - |r| ==> IsWhitespace(s[i])
  {
    if |s| > 0 && IsWhitespace(s[0]) then TrimStart(s[1..]) else s
  }

  /** `s` without its trailing white space: a prefix of `s` that ends with a
      non-white character (or is empty), and everything cut off is white. */
  function TrimEnd(s: string): (r: string)
    ensures |r| <= |s| && r == s[..|r|]
    ensures |r| > 0 ==> !IsWhitespace(r[|r| - 1])
    ensures forall i :: |r| <= i < |s| ==> IsWhitespace(s[i])
  {
    if |s| > 0 && IsWhitespace(s[|s| - 1]) then TrimEnd(s[..|s| - 1]) else s
  }

  /** `s.trim()`. */
  function Trim(s: string): string {
    TrimEnd(TrimStart(s))
  }

  /** `s.trim()` is a slice of `s` with no white space at either end, and
      everything cut off on either side is white. */
  lemma {:induction false} TrimIsSlice(s: string)
    ensures var r := Trim(s);
      && (|r| > 0 ==> !IsWhitespace(r[0]) && !IsWhitespace(r[|r| - 1]))
      && exists k ::
        && 0 <= k <= |s| - |r| && s[k..][..|r|] == r
        && (forall i :: 0 <= i < k ==> IsWhitespace(s[i]))
        && (forall i :: k + |r| <= i < |s| ==> IsWhitespace(s[i]))
  {
    var t := TrimStart(s);
    var k := |s| - |t|;
    assert s[k..][..|Trim(s)|] == Trim(s);
  }

  /** `!s.trim()`: the string is empty once trimmed, which is exactly when
      every one of its characters is white space. */
  predicate IsBlank(s: string)
    ensures IsBlank(s) <==> forall i :: 0 <= i < |s| ==> IsWhitespace(s[i])
  {
    Trim(s) == ""
  }

  /** The character of the decimal digit `d`. */
  function DigitChar(d: nat): (c: char)
    requires d < 10
    ensures '0' <= c <= '9'
  {
    ['0', '1', '2', '3', '4', '5', '6', '7', '8', '9'][d]
  }

  /** The value of the decimal digit character `c`. */
  function DigitValue(c: char): (d: nat)
    requires '0' <= c <= '9'
    ensures d < 10
  {
    c as int - '0' as int
  }

  predicate IsDigits(s: string) {
    forall i :: 0 <= i < |s| ==> '0' <= s[i] <= '9'
  }

  /** `${n}` for a non-negative integer: at least one digit and no leading zero. */
  function NatToString(n: nat): (r: string)
    ensures |r| >= 1 && IsDigits(r)
    ensures |r| > 1 ==> r[0] != '0'
  {
    if n < 10 then [DigitChar(n)] else NatToString(n / 10) + [DigitChar(n % 10)]
  }

  /** `${i}` for any integer: a minus sign before the digits of a negative
      one, the digits without a leading zero, and read back as its magnitude. */
  function IntToString(i: int): (r: string)
    ensures |r| >= 1
    ensures r[0] == '-' <==> i < 0
    ensures var digits := if i < 0 then r[1..] else r;
      && IsDigits(digits) && ParseDigits(digits) == (if i < 0 then -i else i)
      && |digits| >= 1 && (|digits| > 1 ==> digits[0] != '0')
  {
    if i < 0 then
      ParseNatToString(-i);
      assert ("-" + NatToString(-i))[1..] == NatToString(-i);
      "-" + NatToString(-i)
    else
      ParseNatToString(i);
      NatToString(i)
  }

  /** The number a string of decimal digits denotes. */
  function ParseDigits(s: string): nat
    requires IsDigits(s)
  {
    if |s| == 0 then 0 else 10 * ParseDigits(s[..|s| - 1]) + DigitValue(s[|s| - 1])
  }

  /** Reading back a rendered number gives the number: the rendering is injective. */
  lemma {:induction false} ParseNatToString(n: nat)
    ensures ParseDigits(NatToString(n)) == n
  {
    var r := NatToString(n);
    if n < 10 {
      assert DigitValue(DigitChar(n)) == n;
    } else {
      ParseNatToString(n / 10);
      assert r[..|r| - 1] == NatToString(n / 10);
      assert DigitValue(DigitChar(n % 10)) == n % 10;
    }
  }

  lemma {:induction false} NatToStringInjective(m: nat, n: nat)
    requires NatToString(m) == NatToString(n)
    ensures m == n
  {
    ParseNatToString(m);
    ParseNatToString(n);
  }
}

=== FILE: wrappers.dfy ===
/** The optional value used for JavaScript's `undefined` / `null` and for the
    optional fields of a `Partial<Task>`. */
module Wrappers {

  datatype Option<+T> = None | Some(value: T) {

    /** The wrapped value, or `default` when absent (the `x || default` idiom). */
    function GetOr(default: T): (r: T)
      ensures Some? ==> r == value
      ensures None? ==> r == default
    {
      match this
      case Some(v) => v
      case None => default
    }
  }
}
